=== FILE: README.md ===
# repo-ng storage and command handles, modelled in Dafny

This project models the core of repo-ng, a repository for Named Data Networking (NDN). It covers:

- the name index;
- the key-locator fingerprint;
- the SQLite-backed storage;
- the `RepoStorage` façade that de-duplicates insertions and repeats deletions;
- the two command handles that fill the repository: the sync handle (`sync start`/`check`/`stop` and the fetch fan-out of a ChronoSync tree update) and the write handle (`insert` and `insert check`, single or segmented).

Everything is immutable. Operations are pure functions, or methods with loops, that return the new state together with the effects the handle asks of the outside world. The effects are replies, expressed interests, scheduled deletions and storage signals.

Modules, one per file:

| module | file | models |
|---|---|---|
| `Wrappers` | wrappers.dfy | `Option` and `Result` (an exception is a `Failure` carrying its message) |
| `Names` | names.dfy | name components, names and their canonical order (a prefix sorts first), number components |
| `Packets` | packets.dfy | Data, Interest, key locators, the full name (name plus implicit SHA-256 digest) |
| `Storage` | storage.dfy | `Storage::computeKeyLocatorHash` |
| `Index` | index.dfy | `Index` (ordered set of entries, capacity-bounded) |
| `SqliteStorage` | sqlite_storage.dfy | `SqliteStorage` over an abstract `NDN_REPO` row table |
| `RepoStorage` | repo_storage.dfy | `RepoStorage::insertData`, `deleteData`, `readData` |
| `Command` | command.dfy | `RepoCommandParameter`, `RepoCommandResponse`, unsigned 64-bit arithmetic |
| `SyncHandle` | sync_handle.dfy | `SyncHandle` |
| `WriteHandle` | write_handle.dfy | `WriteHandle` |

The clock (`now`, in milliseconds), random process ids, SHA-256 and TLV wire encoding are parameters. The cryptographic and encoding functions form the `Crypto` record. Outcomes of the SQLite C API are a `Fault` parameter: `NoFault`, `BindFailure`, `ConstraintViolation` or `StepError`. Outcomes of erase attempts are the set `fails` of attempt numbers that fail.

How the model reads the code where the code cannot be taken literally:

- `RepoStorage::deleteData` calls `find(name).first` and `erase(Name)`. Neither matches `SqliteStorage`'s own `find`, which returns an (id, name) pair, or its `erase`, which takes an id. The model follows the evident intent: a prefix `find` returns the found (id, full name) pair, and erasing by name is an exact find followed by `erase(id)` (`RepoStorage.EraseByName`).
- The default of `find`'s `exactMatch` argument is declared in a header that is not part of this model. It is taken to be `false`, so `read(name)` and `deleteData` work by prefix.
- SQLite's `ORDER BY name` compares TLV-encoded name blobs. The model orders names by the canonical NDN component order. For the prefix `find` this gives the same result, because a byte-prefix of an encoding is an encoding of a component-prefix.

## Model

| member | source | states |
|---|---|---|
| Names.NameOrderStrictTotal | src/storage/index.cpp:84 | the name order the index and the `ORDER BY` rely on is irreflexive, transitive and total |
| Names.NamePrefixSortsFirst | src/storage/index.cpp:84-87 | a name sorts at or before every name it is a prefix of, so a lower-bound search for a prefix stops at or before its extensions |
| Names.NamePrefixBetween | src/storage/index.cpp:105-117 | a name lying between a prefix and one of its extensions also extends the prefix, so the extensions of a prefix form one contiguous run |
| Packets.FullName | src/storage/index.cpp:143-145 | the full name is the data's name followed by one implicit-digest component, so it is never empty and has the name as a prefix |
| Storage.ComputeKeyLocatorHash | src/storage/storage.cpp:27-39 | succeeds exactly when the signature has a key locator, with the digest of the key locator's encoding (`DIGEST_SIZE` bytes); otherwise it fails with "Data has no KeyLocator!"; the null return is unreachable |
| Index.Empty | src/storage/index.cpp:31-35 | a new index holds no entries and keeps the given capacity |
| Index.EntryOf | src/storage/index.cpp:143-170 | an entry holds the data's full name and the given id, and a key-locator digest exactly when the data has a key locator |
| Index.SearchLowerBound | src/storage/index.cpp:84 | the binary search over the sorted entries returns the lower bound: every entry before it is smaller than the query and the one at it is not |
| Index.LowerBoundLocates | src/storage/index.cpp:99-100 | a full name is stored exactly when the entry at its lower bound carries it |
| Index.ExtensionsAreContiguous | src/storage/index.cpp:105-117 | between two stored extensions of a prefix every entry extends it, and the prefix's lower bound is at or before the first of them |
| Index.FindFirstEntry | src/storage/index.cpp:104-117 | the starting entry is returned exactly when the prefix is a prefix of its name, otherwise `(0, empty name)` |
| Index.Find | src/storage/index.cpp:81-93 | on an empty index, `(0, empty name)`; otherwise either `(0, empty name)` or a stored entry that extends the query with only smaller entries before it |
| Index.FindReturnsLeast | src/storage/index.cpp:84-87 | a nonzero result is the least stored name not below the query |
| Index.FindIffExtensionStored | src/storage/index.cpp:81-117 | with nonzero ids, `find` reports a nonzero id exactly when some stored name extends the query (tests/unit/index.cpp:88-117) |
| Index.Insert | src/storage/index.cpp:50-61 | fails with "The Index is Full" exactly when full; otherwise returns true iff the full name was absent; on true the set gains exactly that entry and the size grows by one, on false nothing changes; the entries stay sorted |
| Index.InsertAt | src/storage/index.cpp:57 | inserting an entry between its strict neighbours keeps the container sorted and adds exactly that entry |
| Index.InsertData | src/storage/index.cpp:38-48 | fails exactly when full; otherwise returns true iff `hasData` was false, afterwards `hasData` holds; on true the new entry is the data's entry and the size grows by one, on false the index is unchanged |
| Index.InsertFullName | src/storage/index.cpp:50-61 | the full-name overload: fails exactly when full; true iff the name was absent, and then its entry is added and the size grows by one; on false the index is unchanged |
| Index.HasData | src/storage/index.cpp:95-102 | true exactly when an entry with the data's full name is stored |
| Index.Erase | src/storage/index.cpp:119-132 | returns true exactly when the full name was stored; then removes exactly that entry and decrements the size; otherwise nothing changes |
| Index.EraseKeepsSorted | src/storage/index.cpp:126 | removing one entry keeps the entries sorted and its name absent |
| Index.HasDataAfterInsertAndErase | src/storage/index.cpp:38-132 | after inserting a packet `hasData` holds, and after erasing its full name it no longer does (tests/unit/index.cpp:147-163) |
| Index.InsertIdempotent | src/storage/index.cpp:44-47 | inserting the same packet again returns false and leaves the index unchanged |
| SqliteStorage.Empty | src/storage/sqlite-storage.cpp:71-76 | a new table has no rows and a zero row count |
| SqliteStorage.FirstNamed | src/storage/sqlite-storage.cpp:268 | the first row carrying a name, or none when no row carries it |
| SqliteStorage.FindExact | src/storage/sqlite-storage.cpp:262-330 | exact mode returns `(id, name)` of a row carrying exactly the name, and `(0, empty name)` when no row does |
| SqliteStorage.LeastNotBelowIsLeast | src/storage/sqlite-storage.cpp:270 | the `name >= ? order by name limit 1` row is the least name not below the query, or none when every name is below it |
| SqliteStorage.FindPrefix | src/storage/sqlite-storage.cpp:270-309 | prefix mode returns either `(0, empty name)` or a stored row whose name extends the query |
| SqliteStorage.Find | src/storage/sqlite-storage.cpp:262-330 | dispatches on `exactMatch` to the exact or the prefix lookup |
| SqliteStorage.FindPrefixIffExtensionStored | src/storage/sqlite-storage.cpp:305-309 | prefix `find` reports a nonzero id exactly when some stored name extends the query |
| SqliteStorage.FindPrefixReturnsLeast | src/storage/sqlite-storage.cpp:270-306 | when some name extends the query, prefix `find` returns the least such name |
| SqliteStorage.Has | src/storage/sqlite-storage.cpp:254-260 | true exactly when a row carries the name (exact `find` id is nonzero) |
| SqliteStorage.RowWithId | src/storage/sqlite-storage.cpp:191 | locates the row with an id, or none when no row has it |
| SqliteStorage.ReadData | src/storage/sqlite-storage.cpp:187-233 | a packet exactly when a row with the id exists and its blob decodes, and then the packet stored in that row |
| SqliteStorage.IdsUnique | src/storage/sqlite-storage.cpp:71-76 | row ids are unique (primary key) |
| SqliteStorage.Read | src/storage/sqlite-storage.cpp:235-246 | nothing when `find` reports id 0; otherwise exactly what `readData` returns for the found id, which is a packet stored under a name extending the query |
| SqliteStorage.Size | src/storage/sqlite-storage.cpp:332-356 | the actual row count, whatever the kept counter says |
| SqliteStorage.Erase | src/storage/sqlite-storage.cpp:154-185 | true exactly when a row with the id existed; then exactly that row is gone and the counter drops by one; otherwise nothing changes |
| SqliteStorage.Insert | src/storage/sqlite-storage.cpp:92-151 | the corrected insert (see Findings; the code as written is `InsertAsWritten`): succeeds exactly when no fault occurs and the data has a key locator; a bind failure throws "Some error with insert", a missing key locator "Data has no KeyLocator!", and every failed step throws, not only `SQLITE_CONSTRAINT`; on success appends one row (full name, encoded data, key-locator digest) under a fresh positive 64-bit id, increments the counter and returns that id |
| SqliteStorage.InsertNeverReportsEmptyName | src/storage/sqlite-storage.cpp:95-100 | a full name is never empty, so the `-1` return of `insert` is unreachable |
| SqliteStorage.InsertThenRead | src/storage/sqlite-storage.cpp:92-233 | after a successful insert, `readData(id)` returns the packet, `has` holds and the size grew by one |
| SqliteStorage.InsertThenEraseRestores | src/storage/sqlite-storage.cpp:92-185 | erasing the id an insert returned succeeds and restores the rows and the counter |
| SqliteStorage.InsertThenReadByName | src/storage/sqlite-storage.cpp:235-246 | after inserting a packet into a table with no name extending the packet's name, prefix `find` on that name returns the new row and `read` returns the packet |
| SqliteStorage.ToInt32 | src/storage/sqlite-storage.cpp:133 | the conversion to a 32-bit `int` keeps the value modulo 2^32 within the signed range |
| SqliteStorage.InsertAsWritten | src/storage/sqlite-storage.cpp:92-151 | as written: succeeds also on a step error other than a constraint violation, and then leaves the rows as they were, increments the counter and returns the last inserted row id truncated to 32 bits; without a fault it appends the same row as the corrected insert and returns the new id truncated to a 32-bit `int`; otherwise its outcome is the corrected insert's with the id truncated |
| SqliteStorage.StepErrorReportedAsInsert | src/storage/sqlite-storage.cpp:134-143 | as written, a failed step returns the previous row's id, counts a row that was not added, and `readData` on that id returns the earlier packet |
| SqliteStorage.RowIdTruncatedToMinusOne | src/storage/sqlite-storage.cpp:133-143 | as written, row id 2^32-1 comes back as -1; the corrected insert returns it |
| RepoStorage.InsertData | src/storage/repo-storage.cpp:36-56 | an already stored full name is a successful no-op without a signal; otherwise the outcome is `insert`'s; a fresh insertion appends one row, signals the application name (not the full name) once and returns true |
| RepoStorage.InsertDataTwice | src/storage/repo-storage.cpp:39-45 | a second insertion of the same packet returns true and changes nothing |
| RepoStorage.InsertDataAsWritten | src/storage/repo-storage.cpp:36-56 | as written over the truncating `insert`: a duplicate is a successful no-op; otherwise it succeeds exactly when that `insert` does, keeps its table, returns true exactly when the returned id is not -1 and then signals the packet's name once; a false result carries no signal |
| RepoStorage.InsertDataFalseAfterTruncation | src/storage/repo-storage.cpp:48-51 | as written, a stored packet is reported as a failed insertion when its row id truncates to -1 |
| RepoStorage.EraseByName | src/storage/repo-storage.cpp:69 | true exactly when a row carries the name; then exactly that row is removed; otherwise nothing changes |
| RepoStorage.DeletionNotice | src/storage/repo-storage.cpp:71 | the corrected notice (see Findings; the code as written is `DeletionNoticeAsWritten`): the deletion signal carries the found name without its last component |
| RepoStorage.DeletionNoticeOfFullName | src/storage/repo-storage.cpp:71 | for a full name, that is exactly the application name |
| RepoStorage.RemoveMatching | src/storage/repo-storage.cpp:69-72 | removing one row that extends the query lowers the count of such rows by one and keeps the other rows |
| RepoStorage.EraseAttempt | src/storage/repo-storage.cpp:69-76 | an erase attempt succeeds exactly when it is not a failing attempt and a row carries the name; a failed one changes nothing |
| RepoStorage.EraseAttemptRemoves | src/storage/repo-storage.cpp:69-76 | a successful erase attempt removes exactly one row carrying the found name and keeps the others in order |
| RepoStorage.FailsWithinIff | src/storage/repo-storage.cpp:74-83 | the failure condition of `deleteData` holds exactly when some attempt number in the range is a failing one |
| RepoStorage.DeleteLoop | src/storage/repo-storage.cpp:64-79 | a loop that finishes has removed exactly the rows extending the query and kept the rest in order; its signals are, as a multiset, one deletion notice per removed row; it reports a failure exactly when one of its first `Matching` attempts fails; when no such attempt fails it finishes within one round per matching row |
| RepoStorage.DeleteData | src/storage/repo-storage.cpp:58-84 | when it finishes: the rows extending the query are gone and the rest kept, one deletion notice is signalled per removed row, and the result is -1 exactly when one of the first `Matching` erase attempts fails, otherwise the number of removed rows; when none of those attempts fails and the fuel suffices it finishes |
| RepoStorage.DeleteDataRunsLoop | src/storage/repo-storage.cpp:64-83 | `deleteData` finishes exactly when its erase loop does, and returns -1 exactly when the loop recorded a failed erase (`hasError`) |
| RepoStorage.LoopStep | src/storage/repo-storage.cpp:68-78 | one round erases the found row exactly when the attempt does not fail, lowering the matching count by one |
| RepoStorage.DeleteDataWithoutFailures | src/storage/repo-storage.cpp:58-84 | without failures, `deleteData` returns the number of rows extending the query, and afterwards `find` reports nothing |
| RepoStorage.DeleteLoopSpins | src/storage/repo-storage.cpp:68-79 | while erases keep failing and a matching row exists, the loop never finishes |
| RepoStorage.OneFailureReportsMinusOne | src/storage/repo-storage.cpp:74-83 | one failed erase makes the result -1 even though every matching row is eventually removed |
| RepoStorage.DeleteDataForInterest | src/storage/repo-storage.cpp:86-90 | `deleteData(Interest)` is `deleteData` on the interest's name |
| RepoStorage.GetSubName | src/storage/repo-storage.cpp:71 | `getSubName(start, count)` is a prefix of the suffix from `start`, the whole suffix when `count` reaches past the end |
| RepoStorage.DeletionNoticeKeepsDigest | src/storage/repo-storage.cpp:71 | as written, `getSubName(0, -2)` converts -2 to a huge `size_t` count and returns the whole full name, not the application name |
| RepoStorage.DeletionNoticeAsWritten | src/storage/repo-storage.cpp:71 | as written, `getSubName(0, -2)` returns the found name whole, whenever its length is below the huge converted count |
| RepoStorage.ReadData | src/storage/repo-storage.cpp:92-98 | `readData(Interest)` is `read` on the interest's name: nothing when `find` reports id 0, otherwise the packet `readData` returns for the found id, which is stored under a name extending the interest's name |
| RepoStorage.InsertThenReadData | src/storage/repo-storage.cpp:92-98 | after `insertData` of a packet into a table with no name extending its name, `readData` of an interest for that name returns the packet |
| Command.StatusReply | src/handles/write-handle.cpp:480-487 | a negative reply carries only the status code and text |
| Command.U64 | src/handles/write-handle.cpp:241-242 | unsigned 64-bit arithmetic: the value modulo 2^64, unchanged when in range |
| SyncHandle.Init | src/handles/sync-handle.cpp:31-42 | a new handle has no sessions, no limits, zero counters and the default lifetime |
| SyncHandle.NegativeReply | src/handles/sync-handle.cpp:340-346 | a negative reply carries the status code and an empty text, and nothing else is set |
| SyncHandle.Touch | src/handles/sync-handle.cpp:105 | `m_processes[name]` inserts a not-running default entry when the name is missing and changes nothing else |
| SyncHandle.TouchPresent | src/handles/sync-handle.cpp:105 | on a present entry that lookup changes nothing |
| SyncHandle.DeleteProcess | src/handles/sync-handle.cpp:44-48 | erases the entry and keeps the others; an absent name is a no-op |
| SyncHandle.SyncStop | src/handles/sync-handle.cpp:74-85 | the entry (created when missing) is stopped with its response kept; limits and counters reset to 0, lifetime to 4000 ms, start time to now; other entries kept |
| SyncHandle.OnRunning | src/handles/sync-handle.cpp:348-360 | stops exactly when the sync timeout has passed or the interest budget is used up; then schedules the deletion and performs `syncStop`; otherwise nothing changes |
| SyncHandle.StoppedHandleHasNoLimit | src/handles/sync-handle.cpp:74-85 | after `syncStop` neither limit can stop the handle, whatever the clock and the interest count |
| SyncHandle.ProcessSyncCommand | src/handles/sync-handle.cpp:266-304 | replies 100; stores (300, running) under the name; takes timeout and budget from the command, 0 when absent; changes the lifetime only when given; leaves the counters and other entries |
| SyncHandle.OnStartValidated | src/handles/sync-handle.cpp:59-72 | an undecodable command replies 403 and changes nothing; otherwise it is the start command |
| SyncHandle.OnCommandValidationFailed | src/handles/sync-handle.cpp:87-92 | a command failing validation replies 401 and changes nothing |
| SyncHandle.OnStopValidated | src/handles/sync-handle.cpp:188-202 | an undecodable command replies 403; otherwise `syncStop` on the name and reply 101 |
| SyncHandle.OnCheckValidated | src/handles/sync-handle.cpp:219-250 | 403 without a name, 404 for an unknown one; otherwise replies the stored response, its status overwritten to 101 when not running, and that overwrite is the only change to the handle |
| SyncHandle.StartThenCheck | src/handles/sync-handle.cpp:219-304 | a check right after a start replies 300 (tests/integrated/test-basic-command-sync.cpp:182) |
| SyncHandle.StopThenCheck | src/handles/sync-handle.cpp:188-250 | a check after a stop replies 101, and so does the next check |
| SyncHandle.OnDataValidated | src/handles/sync-handle.cpp:102-125 | an entry that is not running ignores the data (the lookup creates it); a running one stores the data |
| SyncHandle.StoreFetched | src/handles/sync-handle.cpp:108-123 | fails ("Insert into Repo Failed" or the storage error) exactly when the insertion fails; otherwise the data is stored and the handle counts and refetches |
| SyncHandle.AfterInsert | src/handles/sync-handle.cpp:109-124 | the insertion's signals come first and the new store is kept; past a limit the handle stops and schedules the deletion; otherwise the fetched count grows by one, the entry's `insertNum` becomes that count, and the same interest name is fetched again with `interestNum` one higher; nothing else in the handle changes |
| SyncHandle.Refetch | src/handles/sync-handle.cpp:127-166 | after a validation failure or a timeout, an entry that is not running does nothing; past a limit the handle stops; otherwise the same name is fetched again and `interestNum` grows by one |
| SyncHandle.RangeFetches | src/handles/sync-handle.cpp:319-335 | as many fetches as there are sequence numbers in the range, none for an empty range |
| SyncHandle.OneFetchPerMissingNumber | src/handles/sync-handle.cpp:317-336 | the fan-out issues exactly one fetch per missing sequence number over all updates |
| SyncHandle.RangeFetchAt | src/handles/sync-handle.cpp:319-325 | the k-th fetch of a range asks for `session/low+k` |
| SyncHandle.FetchesBoundToInterestName | src/handles/sync-handle.cpp:323-332 | as written, every fetch is must-be-fresh and its callbacks are bound to its own interest name |
| SyncHandle.ProcessSyncUpdate | src/handles/sync-handle.cpp:306-337 | the loops issue exactly the fan-out, raise `interestNum` by one per fetch, restart the clock when anything was fetched, and change nothing else; an empty list does nothing |
| SyncHandle.FetchRange | src/handles/sync-handle.cpp:319-335 | the inner loop issues the range's fetches in order |
| SyncHandle.ProcessSyncUpdateToRoot | src/handles/sync-handle.cpp:293-332 | the corrected fan-out binds every fetch to the sync name the session is stored under |
| SyncHandle.RootFetchesBoundToRoot | src/handles/sync-handle.cpp:293-332 | in the corrected fan-out every fetch is bound to the sync name |
| SyncHandle.SyncedDataDropped | src/handles/sync-handle.cpp:105-107 | as written, data fetched for a running sync is dropped and not stored, because its bound name has no running entry; with the callbacks bound to the sync name it is stored |
| SyncHandle.StoppedEntryIgnoresCallbacks | src/handles/sync-handle.cpp:105-107 | for a name without a running entry, all three callbacks leave store and counters unchanged |
| WriteHandle.Init | src/handles/write-handle.cpp:32-39 | a new handle has no processes, the default 4000 ms lifetime and the given storage |
| WriteHandle.Put | src/handles/write-handle.cpp:165 | storing a process replaces exactly that process |
| WriteHandle.DeleteProcess | src/handles/write-handle.cpp:52-56 | erases the process and keeps the others; an unknown id is a no-op |
| WriteHandle.HandleInsertCommand | src/handles/write-handle.cpp:58-74 | a start or end block id selects the segmented path, otherwise the single path, and the effects and process table are that path's; a lifetime in the command is taken only after the fetches are sent |
| WriteHandle.ProcessSingleInsertCommand | src/handles/write-handle.cpp:392-415 | replies 100 with the process id and insert count 0, stores the process at 300, and fetches the command's name with the current lifetime |
| WriteHandle.ProcessSegmentedInsertCommand | src/handles/write-handle.cpp:417-463 | a start (0 when absent) past the end block replies 403 and creates no process; otherwise replies 100 with id, count 0 and block ids, stores the process at 300, sends the initial window, leaves its credit at 0, zeroes the window's retry counts, queues the segment after the window, sets the no-end deadline to now + 10 s, and keeps the other processes |
| WriteHandle.InitialCredit | src/handles/write-handle.cpp:173-178 | the window is 12, or `end - start + 1` when that is smaller |
| WriteHandle.WindowFetches | src/handles/write-handle.cpp:187-195 | one interest per segment `start .. start + credit - 1`, in order |
| WriteHandle.ZeroRetries | src/handles/write-handle.cpp:197 | every window segment's retry count is 0 and the other counts are kept |
| WriteHandle.SegInit | src/handles/write-handle.cpp:162-204 | sends the initial window under the command's name, zeroes its retry counts, leaves the credit at 0, queues the segment after the window, and without an end block sets the deadline to now + 10 s |
| WriteHandle.SendWindow | src/handles/write-handle.cpp:185-202 | the loop as written produces exactly that window and those retry counts, the credit ends at 0, and the next segment is `start + credit` |
| WriteHandle.OnDataValidated | src/handles/write-handle.cpp:84-100 | an unknown process ignores the data; the packet is stored only while the insert count is 0: then the store becomes `insertData`'s table, its signals are emitted, the count becomes 1 and no other process changes; the deletion is scheduled in both cases |
| WriteHandle.SingleInsertStoresOnce | src/handles/write-handle.cpp:94-97 | once a single insert has stored a packet, a further packet for it leaves the store unchanged |
| WriteHandle.OnTimeout | src/handles/write-handle.cpp:147-152 | a single insert's timeout or nack erases the process |
| WriteHandle.RefreshEnd | src/handles/write-handle.cpp:125-137 | an announced final segment lowers the end block to it or sets a missing one; otherwise the response is unchanged |
| WriteHandle.OnSegmentDataValidated | src/handles/write-handle.cpp:116-145 | an unknown process ignores the data; otherwise it refreshes the end block, stores the packet, counts it when the insertion reports true, and runs the window control |
| WriteHandle.SegmentDataControl | src/handles/write-handle.cpp:206-306 | a passed no-end deadline sets 405 and a complete range sets 200; both schedule the deletion, send nothing and return one credit. Otherwise one credit comes back; with no credit or an empty queue nothing more happens; a front segment past the end block is popped and dropped; else the front is popped and sent under the arriving interest's prefix, with the process updated as `SendFront` states and the credit spent again. Other processes are untouched and non-negative credits stay non-negative |
| WriteHandle.SendFront | src/handles/write-handle.cpp:262-305 | sending the front segment pops it; the arrived segment loses its retry count and the sent one gets 0 when it had none, one more otherwise; while the next segment stays within the end block it grows by one and is queued; credit, response and deadline are kept |
| WriteHandle.CreditNeverBlocks | src/handles/write-handle.cpp:253-254 | with non-negative credit the credit check never stops a process that has a sendable front segment |
| WriteHandle.QueueStaysWithinEnd | src/handles/write-handle.cpp:302-305 | queued segments and the next segment stay within the end block |
| WriteHandle.OnSegmentTimeoutControl | src/handles/write-handle.cpp:308-345 | a segment with 3 or more retries erases the process; otherwise its count grows by one (from 0 when missing) and the same interest is sent again; an unknown process ignores it |
| WriteHandle.RetriesRunOut | src/handles/write-handle.cpp:308-345 | a segment that keeps timing out is re-sent until its count reaches 3, and the next timeout erases the process |
| WriteHandle.ExtendNoEndTime | src/handles/write-handle.cpp:465-478 | past the deadline the status becomes 405; otherwise the deadline moves to now + 10 s |
| WriteHandle.HandleCheckCommand | src/handles/write-handle.cpp:347-383 | 404 "No such this process is in progress" for an unknown id; otherwise replies the stored response, after extending the deadline (or setting 405) of a process without an end block |
| WriteHandle.CheckPostponesDeadline | src/handles/write-handle.cpp:375-378 | a check before the deadline keeps a no-end process alive for another 10 s |
| WriteHandle.SegmentedInsertThenCheck | src/handles/write-handle.cpp:347-383 | a check of a segmented insert just accepted replies the response the insert stored, with status 300, or with 405 when that response has no end block and the check comes after the deadline the insert set |

## Left out

- Opening the database, creating directories and pragmas (src/storage/sqlite-storage.cpp:33-90) are left out. So are statement preparation and finalisation. The insert's bind and step failures are the `Fault` parameter.
- RepoStorage.DeleteData: the `fails` set models only `erase` returning false because `sqlite3_changes` is not 1 (src/storage/sqlite-storage.cpp:172-173). `erase` throws when preparing, binding or stepping its statement fails (src/storage/sqlite-storage.cpp:159-163, 167-171, 176-179), and such an exception aborts `deleteData`; those exceptions are left out, so the model never reports that abort.
- The row-count drift warning in `size()` is only logged, and is left out.
- SHA-256 and TLV encoding and decoding are fields of the `Crypto` record and are not computed. A stored blob is `Encoded(data)` or `Undecodable`, so decoding a stored name cannot fail. The name decoding error at src/storage/sqlite-storage.cpp:297-298 is left out.
- `Index::computeKeyLocatorHash` (src/storage/index.cpp:134-140) is `Crypto`'s digest of the key locator.
- The `Entry` constructor that takes a key locator directly is the digest of that key locator, passed to `Index.InsertFullName`.
- `Index::find(Interest)` is `Index.Find` applied to the interest's name.
- Storage.HashDependsOnlyOnKeyLocator: its proof is immediate, because the digest is a function of the key locator alone.
- The face, the validator, the scheduler, the dispatcher, interest-filter registration and the ChronoSync socket become `Effect`s and explicit transition inputs.
- The sync handle's socket reset in `syncStop` is left out.
- Logging to `cerr` and `NDN_LOG` is left out.
- Command-parameter decoding is an `Option<Parameter>`: `None` is a decode failure.
- The insert-check command's parameter validation happens in the dispatcher, which is not part of this model. An absent process id reads as 0.
- The headers are not part of this model. The defaults they define are taken as follows:
  - a default `ProcessInfo` has credit 0, next segment 0, an empty queue and no retry counts;
  - `getInsertNum` and `getStartBlockId` read 0 when unset.
- Sequence numbers, segment numbers and `startBlockId + initialCredit` are unbounded naturals. The model does not wrap them at 2^64. The ChronoSync loop `seq <= high` would never end at `high == 2^64-1`.
- The range length `end - start + 1` and the window are computed modulo 2^64 (`Command.U64`).
- The AUTOINCREMENT counter is not capped at 2^63.
- A segment interest is the pair (prefix, segment) (`WriteHandle.SegmentInterest`). The encoding of the segment component and `toSegment` decoding are left out.
- The `BOOST_ASSERT` debug checks are not preconditions, since release builds skip them. This covers the retry count of a fetched or timed-out segment (src/handles/write-handle.cpp:277, 324) and the digest size.
- ndn-handle/tcp-bulk-insert-handle.cpp (socket plumbing) is left out. So is tests/integrated/test-basic-command-sync.cpp, which serves only as evidence for the status codes.
- RepoStorage.DeleteData: the loop signals the corrected notice, `DeletionNotice` (the found full name without its digest component), so a deletion of `/a` signals `/a`. The code as written signals the whole full name `/a/<digest>` (`DeletionNoticeAsWritten`, see Findings).
- SyncHandle.StoreFetched: it runs over the corrected `RepoStorage.InsertData`, not `InsertDataAsWritten`. A step error other than a constraint violation therefore makes it fail with the storage error. As written, `insertData` would report true, and the handle would count the packet and refetch. Its "Insert into Repo Failed" branch, which as written is reached when the row id truncates to -1, cannot be reached over the corrected insertion.
- WriteHandle.OnDataValidated: it runs over the corrected `RepoStorage.InsertData`. A step error other than a constraint violation makes it fail, where as written the insertion reports true and the insert count becomes 1.
- WriteHandle.OnSegmentDataValidated: it runs over the corrected `RepoStorage.InsertData`. A step error other than a constraint violation makes it fail, where as written the segment is counted and the window control runs. A row id truncated to -1 is not modelled here either: as written, the stored segment goes uncounted.
- RepoStorage.DeleteData: termination is modelled with a `fuel` bound. `None` means the loop did not finish within `fuel` rounds. Every erase that does not fail removes the found row, so `fuel` ≥ the number of matching rows suffices when none of the first that many attempts fails (`DeleteLoop`); later failing attempts are never reached. A loop whose erases keep failing never finishes (`DeleteLoopSpins`).
- SyncHandle.OnTimeout and SyncHandle.OnDataValidationFailed: their contracts are stated through `Refetch`, which both callbacks are, line for line.
- SyncHandle.FetchRange: the length of the range is not restated in its contract. It follows from `RangeFetches`.

## Findings

| source | as written | input that shows it | evidently intended | confidence | as-written member | corrected member |
|---|---|---|---|---|---|---|
| src/storage/sqlite-storage.cpp:134-143 | only `SQLITE_CONSTRAINT` from `sqlite3_step` is an error; any other failing step increments `m_size` and returns `sqlite3_last_insert_rowid` | a table holding one packet (id 1), then an insert whose step fails with `SQLITE_ERROR` | every step result other than `SQLITE_DONE` throws | medium, not executed | SqliteStorage.StepErrorReportedAsInsert | SqliteStorage.Insert |
| src/storage/sqlite-storage.cpp:133, 143 | the 64-bit row id is stored in an `int`, so ids from 2^31 on are truncated; id 2^32-1 becomes -1, which `insertData` reads as failure | a table whose AUTOINCREMENT counter is 2^32-2 | `int64_t id` | high, not executed | SqliteStorage.RowIdTruncatedToMinusOne, RepoStorage.InsertDataFalseAfterTruncation | SqliteStorage.Insert, RepoStorage.InsertData |
| src/storage/repo-storage.cpp:71 | `getSubName(0, -2)` turns -2 into a huge `size_t` count and signals the whole full name, digest included | any stored packet, e.g. `/a` whose full name is `/a/<digest>` | the application name: the full name without its digest component | high, not executed | RepoStorage.DeletionNoticeKeepsDigest | RepoStorage.DeletionNotice, RepoStorage.DeletionNoticeOfFullName |
| src/handles/sync-handle.cpp:330-332 | fetch callbacks are bound to the per-fetch `session/seq` name; that name has no running entry, so `onDataValidated` returns at :105 and the fetched data is never stored | start a sync for `/sync`, then a tree update with session `/p` and sequence 1 | bind the callbacks to the sync name the session is stored under (:293) | medium, not executed | SyncHandle.ProcessSyncUpdate, SyncHandle.SyncedDataDropped | SyncHandle.ProcessSyncUpdateToRoot, SyncHandle.RootFetchesBoundToRoot |

=== FILE: command.dfy ===
/** The repo command records the handles exchange: the decoded parameters
    of a command interest and the response a handle replies with or keeps
    per process. Every optional field is an `Option`; the `has…` test of
    the source is `.Some?`. */
module Command {
  import opened Names
  import opened Wrappers

  /** `RepoCommandParameter`, as decoded from a command interest. Durations
      are in milliseconds. */
  datatype Parameter = Parameter(
    name: Option<Name>,
    startBlockId: Option<nat>,
    endBlockId: Option<nat>,
    processId: Option<nat>,
    maxInterestNum: Option<nat>,
    syncTimeout: Option<nat>,
    interestLifetime: Option<nat>)

  /** `RepoCommandResponse`. A default-constructed response has no field
      set. */
  datatype Response = Response(
    code: Option<nat>,
    text: string,
    processId: Option<nat>,
    insertNum: Option<nat>,
    startBlockId: Option<nat>,
    endBlockId: Option<nat>)

  function NoResponse(): Response {
    Response(None, "", None, None, None, None)
  }

  /** A response carrying only a status code (and a text), as the handles'
      `negativeReply` builds it. */
  function StatusReply(code: nat, text: string): (r: Response)
    ensures r.code == Some(code) && r.text == text
    ensures r.processId.None? && r.insertNum.None? && r.startBlockId.None? && r.endBlockId.None?
  {
    NoResponse().(code := Some(code), text := text)
  }

  /** `getName()` of a parameter without a name yields the empty name. */
  function NameOf(p: Parameter): Name {
    p.name.GetOr([])
  }

  const U64_MODULUS: nat := 0x1_0000_0000_0000_0000

  /** Unsigned 64-bit arithmetic: the value modulo 2^64. */
  function U64(x: int): (n: nat)
    ensures n < U64_MODULUS
    ensures 0 <= x < U64_MODULUS ==> n == x
    ensures (n - x) % U64_MODULUS == 0
  {
    x % U64_MODULUS
  }
}

=== FILE: index.dfy ===
/** The in-memory index: an ordered set of entries (full name, optional
    key-locator fingerprint, storage id), ordered by name, answering
    lower-bound prefix queries. The `std::set` is a strictly sorted sequence. */
module Index {
  import opened Names
  import opened Wrappers
  import opened Packets

  const INDEX_FULL := "The Index is Full. Cannot Insert Any Data!"

  datatype Entry = Entry(name: Name, keyLocatorHash: Option<Digest>, id: int)

  datatype Index = Index(entries: seq<Entry>, size: nat, maxPackets: nat)

  ghost predicate Sorted(es: seq<Entry>) {
    forall i, j :: 0 <= i < j < |es| ==> NameLess(es[i].name, es[j].name)
  }

  /** The container is ordered and `m_size` counts its entries. */
  ghost predicate Valid(ix: Index) {
    Sorted(ix.entries) && ix.size == |ix.entries|
  }

  function NameSet(es: seq<Entry>): set<Name> {
    set e | e in es :: e.name
  }

  /** `Index::Index(nMaxPackets)`. */
  function Empty(maxPackets: nat): (ix: Index)
    ensures Valid(ix) && ix.entries == [] && ix.maxPackets == maxPackets
  {
    Index([], 0, maxPackets)
  }

  predicate IsFull(ix: Index) {
    ix.size >= ix.maxPackets
  }

  /** `Entry(data, id)`: the full name, and the key-locator digest when the
      signature has a key locator. */
  function EntryOf(c: Crypto, d: Data, id: int): (e: Entry)
    ensures e.name == FullName(c, d) && e.id == id
    ensures e.keyLocatorHash.Some? <==> d.keyLocator.Some?
    ensures e.keyLocatorHash.Some? ==> e.keyLocatorHash.value == KeyLocatorDigest(c, d.keyLocator.value)
  {
    var hash := match d.keyLocator
      case Some(k) => Some(KeyLocatorDigest(c, k))
      case None => None;
    Entry(FullName(c, d), hash, id)
  }

  /** Position of the first entry whose name is not less than `q`
      (`std::set::lower_bound`). */
  function LowerBound(es: seq<Entry>, q: Name): (i: nat)
    ensures i <= |es|
    ensures forall k :: 0 <= k < i ==> NameLess(es[k].name, q)
    ensures i < |es| ==> !NameLess(es[i].name, q)
  {
    if |es| == 0 || !NameLess(es[0].name, q) then 0 else 1 + LowerBound(es[1..], q)
  }

  lemma {:induction false} LowerBoundUnique(es: seq<Entry>, q: Name, i: nat)
    requires i <= |es|
    requires forall k :: 0 <= k < i ==> NameLess(es[k].name, q)
    requires i < |es| ==> !NameLess(es[i].name, q)
    ensures i == LowerBound(es, q)
    decreases i
  {
    if i > 0 {
      LowerBoundUnique(es[1..], q, i - 1);
    }
  }

  /** Every entry from the lower bound on sorts at or after the query. */
  lemma LowerBoundSplits(es: seq<Entry>, q: Name, k: int)
    requires Sorted(es)
    requires LowerBound(es, q) <= k < |es|
    ensures NameLe(q, es[k].name)
  {
    var i := LowerBound(es, q);
    NameNotLessIsGe(es[i].name, q);
    if i < k {
      assert NameLess(es[i].name, es[k].name);
      NameLeThenLess(q, es[i].name, es[k].name);
    }
  }

  /** `lower_bound` as the container computes it: a binary search. */
  method SearchLowerBound(es: seq<Entry>, q: Name) returns (i: nat)
    requires Sorted(es)
    ensures i == LowerBound(es, q)
  {
    NameOrderStrictTotal();
    var lo, hi := 0, |es|;
    while lo < hi
      invariant 0 <= lo <= hi <= |es|
      invariant forall k :: 0 <= k < lo ==> NameLess(es[k].name, q)
      invariant forall k :: hi <= k < |es| ==> !NameLess(es[k].name, q)
    {
      var mid := (lo + hi) / 2;
      if NameLess(es[mid].name, q) {
        lo := mid + 1;
      } else {
        hi := mid;
      }
    }
    i := lo;
    LowerBoundUnique(es, q, i);
  }

  /** With a sorted container, the lower bound holds `n` iff some entry does. */
  lemma LowerBoundLocates(es: seq<Entry>, n: Name)
    requires Sorted(es)
    ensures n in NameSet(es) <==> (LowerBound(es, n) < |es| && es[LowerBound(es, n)].name == n)
  {
    NameOrderStrictTotal();
    var i := LowerBound(es, n);
    if n in NameSet(es) {
      var k :| 0 <= k < |es| && es[k].name == n;
      assert k >= i;
      if k > i {
        assert NameLess(es[i].name, es[k].name);
      }
    }
  }

  /** Extensions of a prefix are contiguous in the container and none of them
      lies before the lower bound of the prefix. */
  lemma ExtensionsAreContiguous(es: seq<Entry>, q: Name, i: int, k: int)
    requires Sorted(es)
    requires 0 <= i <= k < |es|
    requires q <= es[i].name && q <= es[k].name
    ensures forall j :: i <= j <= k ==> q <= es[j].name
    ensures LowerBound(es, q) <= i
  {
    NamePrefixSortsFirst(q, es[i].name);
    forall j | i <= j <= k
      ensures q <= es[j].name
    {
      if i < j < k {
        assert NameLess(es[i].name, es[j].name) && NameLess(es[j].name, es[k].name);
        NameLeThenLess(q, es[i].name, es[j].name);
        NamePrefixBetween(q, es[j].name, es[k].name);
      }
    }
    NameLeNotGreater(q, es[i].name);
  }

  /** `Index::findFirstEntry`. */
  function FindFirstEntry(prefix: Name, e: Entry): (r: (int, Name))
    ensures r == (0, []) || (prefix <= e.name && r == (e.id, e.name))
    ensures prefix <= e.name ==> r == (e.id, e.name)
  {
    if prefix <= e.name then (e.id, e.name) else (0, [])
  }

  /** `Index::find` (both the Name and the Interest overload, which look up the
      interest's name): the entry at the lower bound when its name extends the
      query, otherwise `(0, empty name)`. */
  function Find(ix: Index, q: Name): (r: (int, Name))
    ensures ix.entries == [] ==> r == (0, [])
    ensures r == (0, [])
         || (q <= r.1 && exists k :: 0 <= k < |ix.entries| && (ix.entries[k].id, ix.entries[k].name) == r
                                     && forall j :: 0 <= j < k ==> NameLess(ix.entries[j].name, q))
  {
    var i := LowerBound(ix.entries, q);
    if i < |ix.entries| then FindFirstEntry(q, ix.entries[i]) else (0, [])
  }

  /** A found name is the least stored name not below the query. */
  lemma FindReturnsLeast(ix: Index, q: Name, j: int)
    requires Valid(ix)
    requires Find(ix, q) != (0, [])
    requires 0 <= j < |ix.entries| && NameLe(q, ix.entries[j].name)
    ensures NameLe(Find(ix, q).1, ix.entries[j].name)
  {
    var i := LowerBound(ix.entries, q);
    if j < i {
      NameLeNotGreater(q, ix.entries[j].name);
    } else if i < j {
      assert NameLess(ix.entries[i].name, ix.entries[j].name);
    }
  }

  /** Prefix completeness: when no entry carries the sentinel id 0, `find`
      reports a nonzero id exactly when some stored name extends the query. */
  lemma FindIffExtensionStored(ix: Index, q: Name)
    requires Valid(ix)
    requires forall k :: 0 <= k < |ix.entries| ==> ix.entries[k].id != 0
    ensures Find(ix, q).0 != 0 <==> exists k :: 0 <= k < |ix.entries| && q <= ix.entries[k].name
  {
    var es := ix.entries;
    if k :| 0 <= k < |es| && q <= es[k].name {
      var i := LowerBound(es, q);
      NamePrefixSortsFirst(q, es[k].name);
      NameLeNotGreater(q, es[k].name);
      assert k >= i;
      if i < k {
        assert NameLess(es[i].name, es[k].name);
        LowerBoundSplits(es, q, i);
        NamePrefixBetween(q, es[i].name, es[k].name);
      }
    }
  }

  /** Insertion of one entry into the ordered set, shared by both overloads of
      `Index::insert`. */
  function Insert(ix: Index, e: Entry): (r: Result<(bool, Index)>)
    requires Valid(ix)
    ensures r.Failure? <==> IsFull(ix)
    ensures r.Failure? ==> r.error == INDEX_FULL
    ensures r.Success? ==> Valid(r.value.1) && r.value.1.maxPackets == ix.maxPackets
    ensures r.Success? ==> (r.value.0 <==> e.name !in NameSet(ix.entries))
    ensures r.Success? ==> NameSet(r.value.1.entries) == NameSet(ix.entries) + {e.name}
    ensures r.Success? && !r.value.0 ==> r.value.1 == ix
    ensures r.Success? && r.value.0 ==> r.value.1.size == ix.size + 1
    ensures r.Success? && r.value.0 ==> multiset(r.value.1.entries) == multiset(ix.entries) + multiset{e}
  {
    if IsFull(ix) then Failure(INDEX_FULL)
    else
      var es := ix.entries;
      var i := LowerBound(es, e.name);
      LowerBoundLocates(es, e.name);
      if i < |es| && es[i].name == e.name then Success((false, ix))
      else
        InsertPosition(es, e.name, i);
        InsertAt(es, e, i);
        Success((true, ix.(entries := es[..i] + [e] + es[i..], size := ix.size + 1)))
  }

  /** When the name is absent, every entry from the lower bound on sorts
      strictly after it. */
  lemma InsertPosition(es: seq<Entry>, n: Name, i: nat)
    requires i == LowerBound(es, n)
    requires !(i < |es| && es[i].name == n)
    ensures i <= |es| && forall k :: 0 <= k < i ==> NameLess(es[k].name, n)
    ensures i < |es| ==> NameLess(n, es[i].name)
  {
    if i < |es| {
      NameNotLessIsGe(es[i].name, n);
    }
  }

  /** Placing an entry between the names below it and the names above it keeps
      the container ordered, adds its name and nothing else. */
  lemma InsertAt(es: seq<Entry>, e: Entry, i: nat)
    requires Sorted(es) && i <= |es|
    requires forall k :: 0 <= k < i ==> NameLess(es[k].name, e.name)
    requires i < |es| ==> NameLess(e.name, es[i].name)
    ensures Sorted(es[..i] + [e] + es[i..])
    ensures NameSet(es[..i] + [e] + es[i..]) == NameSet(es) + {e.name}
    ensures multiset(es[..i] + [e] + es[i..]) == multiset(es) + multiset{e}
  {
    var es' := es[..i] + [e] + es[i..];
    forall a, b | 0 <= a < b < |es'|
      ensures NameLess(es'[a].name, es'[b].name)
    {
      InsertedPairOrdered(es, e, i, a, b);
    }
    InsertedContents(es, e, i);
  }

  lemma InsertedContents(es: seq<Entry>, e: Entry, i: nat)
    requires i <= |es|
    ensures NameSet(es[..i] + [e] + es[i..]) == NameSet(es) + {e.name}
    ensures multiset(es[..i] + [e] + es[i..]) == multiset(es) + multiset{e}
  {
    assert es == es[..i] + es[i..];
    assert forall x :: x in es[..i] + [e] + es[i..] <==> x in es || x == e;
  }

  lemma InsertedPairOrdered(es: seq<Entry>, e: Entry, i: nat, a: nat, b: nat)
    requires Sorted(es) && i <= |es|
    requires forall k :: 0 <= k < i ==> NameLess(es[k].name, e.name)
    requires i < |es| ==> NameLess(e.name, es[i].name)
    requires a < b < |es| + 1
    ensures NameLess((es[..i] + [e] + es[i..])[a].name, (es[..i] + [e] + es[i..])[b].name)
  {
    var es' := es[..i] + [e] + es[i..];
    if b < i {
      assert es'[a] == es[a] && es'[b] == es[b];
    } else if i < a {
      assert es'[a] == es[a - 1] && es'[b] == es[b - 1];
    } else if b == i {
      assert es'[a] == es[a] && es'[b] == e;
    } else if a == i {
      assert es'[a] == e && es'[b] == es[b - 1];
      if i < b - 1 {
        NameLeThenLess(e.name, es[i].name, es[b - 1].name);
      }
    } else {
      assert es'[a] == es[a] && es'[b] == es[b - 1];
    }
  }

  /** `Index::insert(const Data&, int64_t)`. */
  function InsertData(c: Crypto, ix: Index, d: Data, id: int): (r: Result<(bool, Index)>)
    requires Valid(ix)
    ensures r.Failure? <==> IsFull(ix)
    ensures r.Success? ==> (r.value.0 <==> !HasData(c, ix, d))
    ensures r.Success? ==> Valid(r.value.1) && HasData(c, r.value.1, d)
    ensures r.Success? && r.value.0 ==> EntryOf(c, d, id) in r.value.1.entries
    ensures r.Success? && r.value.0 ==> r.value.1.size == ix.size + 1
    ensures r.Success? && !r.value.0 ==> r.value.1 == ix
  {
    var r := Insert(ix, EntryOf(c, d, id));
    if r.Success? && r.value.0 then
      assert EntryOf(c, d, id) in multiset(r.value.1.entries);
      r
    else r
  }

  /** `Index::insert(const Name&, int64_t, const ConstBufferPtr&)`: the same
      contract, for a precomputed fingerprint. */
  function InsertFullName(ix: Index, fullName: Name, id: int, hash: Option<Digest>): (r: Result<(bool, Index)>)
    requires Valid(ix)
    ensures r.Failure? <==> IsFull(ix)
    ensures r.Success? ==> (r.value.0 <==> fullName !in NameSet(ix.entries))
    ensures r.Success? ==> Valid(r.value.1) && fullName in NameSet(r.value.1.entries)
    ensures r.Success? && r.value.0 ==> Entry(fullName, hash, id) in r.value.1.entries
    ensures r.Success? && r.value.0 ==> r.value.1.size == ix.size + 1
    ensures r.Success? && !r.value.0 ==> r.value.1 == ix
  {
    var r := Insert(ix, Entry(fullName, hash, id));
    if r.Success? && r.value.0 then
      assert Entry(fullName, hash, id) in multiset(r.value.1.entries);
      r
    else r
  }

  /** `Index::hasData`: membership of the packet's full name. */
  function HasData(c: Crypto, ix: Index, d: Data): (r: bool)
    requires Valid(ix)
    ensures r <==> FullName(c, d) in NameSet(ix.entries)
  {
    var n := FullName(c, d);
    var i := LowerBound(ix.entries, n);
    LowerBoundLocates(ix.entries, n);
    i < |ix.entries| && ix.entries[i].name == n
  }

  /** `Index::erase`: removal of the entry with exactly this full name. */
  function Erase(ix: Index, fullName: Name): (r: (bool, Index))
    requires Valid(ix)
    ensures r.0 <==> fullName in NameSet(ix.entries)
    ensures Valid(r.1) && fullName !in NameSet(r.1.entries) && r.1.maxPackets == ix.maxPackets
    ensures !r.0 ==> r.1 == ix
    ensures r.0 ==> r.1.size == ix.size - 1
    ensures r.0 ==> exists k :: 0 <= k < |ix.entries| && ix.entries[k].name == fullName
                                && r.1.entries == ix.entries[..k] + ix.entries[k + 1..]
  {
    var es := ix.entries;
    var i := LowerBound(es, fullName);
    LowerBoundLocates(es, fullName);
    if i < |es| && es[i].name == fullName then
      var es' := es[..i] + es[i + 1..];
      EraseKeepsSorted(es, i);
      (true, ix.(entries := es', size := ix.size - 1))
    else (false, ix)
  }

  lemma EraseKeepsSorted(es: seq<Entry>, i: nat)
    requires Sorted(es) && i < |es|
    ensures Sorted(es[..i] + es[i + 1..])
    ensures es[i].name !in NameSet(es[..i] + es[i + 1..])
  {
    NameOrderStrictTotal();
    var es' := es[..i] + es[i + 1..];
    forall a, b | 0 <= a < b < |es'|
      ensures NameLess(es'[a].name, es'[b].name)
    {
      var a', b' := if a < i then a else a + 1, if b < i then b else b + 1;
      assert es'[a] == es[a'] && es'[b] == es[b'];
    }
    forall k | 0 <= k < |es'|
      ensures es'[k].name != es[i].name
    {
      var k' := if k < i then k else k + 1;
      assert es'[k] == es[k'];
    }
  }

  /** `hasData` holds right after any successful insert and fails right after
      the erase of the packet's full name. */
  lemma HasDataAfterInsertAndErase(c: Crypto, ix: Index, d: Data, id: int)
    requires Valid(ix) && !IsFull(ix)
    ensures HasData(c, InsertData(c, ix, d, id).value.1, d)
    ensures !HasData(c, Erase(InsertData(c, ix, d, id).value.1, FullName(c, d)).1, d)
  {
  }

  /** Inserting the same packet twice leaves the index as the first insertion
      left it, and the second call reports false. */
  lemma InsertIdempotent(c: Crypto, ix: Index, d: Data, id1: int, id2: int)
    requires Valid(ix) && !IsFull(ix)
    requires var r := InsertData(c, ix, d, id1); r.Success? && !IsFull(r.value.1)
    ensures var ix1 := InsertData(c, ix, d, id1).value.1;
            InsertData(c, ix1, d, id2) == Success((false, ix1))
  {
  }
}

=== FILE: names.dfy ===
/** Names: sequences of typed binary components, their prefix relation and the
    canonical order in which a name sorts before every name it is a prefix of.
    The prefix relation `p <= n` is Dafny's sequence-prefix operator, which is
    exactly `Name::isPrefixOf`. */
module Names {

  newtype Byte = x: int | 0 <= x < 256

  /** A name component: its TLV type and its value bytes. */
  datatype Component = Component(typ: nat, value: seq<Byte>)

  /** TLV type of the implicit SHA-256 digest component that ends a full name. */
  const IMPLICIT_DIGEST_TYPE: nat := 1
  /** TLV type of an ordinary (generic) component. */
  const GENERIC_TYPE: nat := 8

  type Name = seq<Component>

  /** Lexicographic order on sequences over an element order `less`; a proper
      prefix sorts before its extensions. */
  predicate LexLess<T(==)>(less: (T, T) -> bool, a: seq<T>, b: seq<T>)
    decreases |a|
  {
    if |a| == 0 then |b| > 0
    else if |b| == 0 then false
    else less(a[0], b[0]) || (a[0] == b[0] && LexLess(less, a[1..], b[1..]))
  }

  predicate LexLe<T(==)>(less: (T, T) -> bool, a: seq<T>, b: seq<T>) {
    a == b || LexLess(less, a, b)
  }

  ghost predicate StrictTotal<T(!new)>(less: (T, T) -> bool) {
    && (forall x :: !less(x, x))
    && (forall x, y, z :: less(x, y) && less(y, z) ==> less(x, z))
    && (forall x, y :: x != y ==> less(x, y) || less(y, x))
  }

  lemma {:induction false} LexIrreflexive<T(!new)>(less: (T, T) -> bool, a: seq<T>)
    requires StrictTotal(less)
    ensures !LexLess(less, a, a)
    decreases |a|
  {
    if |a| > 0 {
      LexIrreflexive(less, a[1..]);
    }
  }

  lemma {:induction false} LexTransitive<T(!new)>(less: (T, T) -> bool, a: seq<T>, b: seq<T>, c: seq<T>)
    requires StrictTotal(less)
    requires LexLess(less, a, b) && LexLess(less, b, c)
    ensures LexLess(less, a, c)
    decreases |a|
  {
    if |a| > 0 && a[0] == b[0] && b[0] == c[0] {
      LexTransitive(less, a[1..], b[1..], c[1..]);
    }
  }

  lemma {:induction false} LexTotal<T(!new)>(less: (T, T) -> bool, a: seq<T>, b: seq<T>)
    requires StrictTotal(less)
    requires a != b
    ensures LexLess(less, a, b) || LexLess(less, b, a)
    decreases |a|
  {
    if |a| > 0 && |b| > 0 && a[0] == b[0] {
      assert a == [a[0]] + a[1..] && b == [b[0]] + b[1..];
      LexTotal(less, a[1..], b[1..]);
    }
  }

  lemma LexAsymmetric<T(!new)>(less: (T, T) -> bool, a: seq<T>, b: seq<T>)
    requires StrictTotal(less)
    requires LexLess(less, a, b)
    ensures !LexLess(less, b, a)
  {
    if LexLess(less, b, a) {
      LexTransitive(less, a, b, a);
      LexIrreflexive(less, a);
    }
  }

  /** A prefix of a sequence never sorts after it. */
  lemma {:induction false} PrefixSortsFirst<T(!new)>(less: (T, T) -> bool, p: seq<T>, n: seq<T>)
    requires p <= n
    ensures LexLe(less, p, n)
    decreases |p|
  {
    if |p| > 0 {
      PrefixSortsFirst(less, p[1..], n[1..]);
    }
  }

  /** Every sequence lying between `q` and an extension of `q` extends `q` as
      well: this is what lets a lower-bound search answer a prefix query. */
  lemma {:induction false} PrefixBetween<T(!new)>(less: (T, T) -> bool, q: seq<T>, x: seq<T>, y: seq<T>)
    requires StrictTotal(less)
    requires q <= y
    requires LexLe(less, q, x) && LexLe(less, x, y)
    ensures q <= x
    decreases |q|
  {
    if |q| > 0 && q != x && x != y {
      assert !less(q[0], q[0]);
      PrefixBetween(less, q[1..], x[1..], y[1..]);
    }
  }

  predicate ByteLess(x: Byte, y: Byte) {
    x < y
  }

  /** NDN's canonical component order: by type, then the shorter value first,
      then values of equal length byte by byte. */
  predicate ComponentLess(a: Component, b: Component) {
    || a.typ < b.typ
    || (a.typ == b.typ && |a.value| < |b.value|)
    || (a.typ == b.typ && |a.value| == |b.value| && LexLess(ByteLess, a.value, b.value))
  }

  /** `Name::compare`: component-wise, a prefix sorting first. */
  predicate NameLess(a: Name, b: Name) {
    LexLess(ComponentLess, a, b)
  }

  predicate NameLe(a: Name, b: Name) {
    LexLe(ComponentLess, a, b)
  }

  lemma ByteOrderStrictTotal()
    ensures StrictTotal(ByteLess)
  {
  }

  lemma ComponentOrderStrictTotal()
    ensures StrictTotal(ComponentLess)
  {
    ByteOrderStrictTotal();
    forall a: Component
      ensures !ComponentLess(a, a)
    {
      LexIrreflexive(ByteLess, a.value);
    }
    forall a: Component, b: Component, c: Component | ComponentLess(a, b) && ComponentLess(b, c)
      ensures ComponentLess(a, c)
    {
      if a.typ == b.typ == c.typ && |a.value| == |b.value| == |c.value| {
        LexTransitive(ByteLess, a.value, b.value, c.value);
      }
    }
    forall a: Component, b: Component | a != b
      ensures ComponentLess(a, b) || ComponentLess(b, a)
    {
      if a.typ == b.typ && |a.value| == |b.value| {
        LexTotal(ByteLess, a.value, b.value);
      }
    }
  }

  /** The name order is a strict total order. */
  lemma NameOrderStrictTotal()
    ensures forall a: Name :: !NameLess(a, a)
    ensures forall a: Name, b: Name, c: Name :: NameLess(a, b) && NameLess(b, c) ==> NameLess(a, c)
    ensures forall a: Name, b: Name :: a != b ==> NameLess(a, b) || NameLess(b, a)
  {
    ComponentOrderStrictTotal();
    forall a: Name
      ensures !NameLess(a, a)
    {
      LexIrreflexive(ComponentLess, a);
    }
    forall a: Name, b: Name, c: Name | NameLess(a, b) && NameLess(b, c)
      ensures NameLess(a, c)
    {
      LexTransitive(ComponentLess, a, b, c);
    }
    forall a: Name, b: Name | a != b
      ensures NameLess(a, b) || NameLess(b, a)
    {
      LexTotal(ComponentLess, a, b);
    }
  }

  lemma NameLeThenLess(a: Name, b: Name, c: Name)
    requires NameLe(a, b) && NameLess(b, c)
    ensures NameLess(a, c)
  {
    if a != b {
      ComponentOrderStrictTotal();
      LexTransitive(ComponentLess, a, b, c);
    }
  }

  lemma NameLessThenLe(a: Name, b: Name, c: Name)
    requires NameLess(a, b) && NameLe(b, c)
    ensures NameLess(a, c)
  {
    if b != c {
      ComponentOrderStrictTotal();
      LexTransitive(ComponentLess, a, b, c);
    }
  }

  lemma NameLeTransitive(a: Name, b: Name, c: Name)
    requires NameLe(a, b) && NameLe(b, c)
    ensures NameLe(a, c)
  {
    if a != b && b != c {
      ComponentOrderStrictTotal();
      LexTransitive(ComponentLess, a, b, c);
    }
  }

  lemma NameLeNotGreater(a: Name, b: Name)
    requires NameLe(a, b)
    ensures !NameLess(b, a)
  {
    ComponentOrderStrictTotal();
    if a == b {
      LexIrreflexive(ComponentLess, a);
    } else {
      LexAsymmetric(ComponentLess, a, b);
    }
  }

  lemma NameNotLessIsGe(a: Name, b: Name)
    requires !NameLess(a, b)
    ensures NameLe(b, a)
  {
    NameOrderStrictTotal();
    if a != b {
      assert NameLess(b, a);
    }
  }

  /** Names between a query and one of its extensions extend the query. */
  lemma NamePrefixBetween(q: Name, x: Name, y: Name)
    requires q <= y
    requires NameLe(q, x) && NameLe(x, y)
    ensures q <= x
  {
    ComponentOrderStrictTotal();
    PrefixBetween(ComponentLess, q, x, y);
  }

  /** Every extension of a name sorts at or after it. */
  lemma NamePrefixSortsFirst(q: Name, n: Name)
    requires q <= n
    ensures NameLe(q, n)
  {
    PrefixSortsFirst(ComponentLess, q, n);
  }

  /** `Name::appendNumber`: a generic component holding the NDN-TLV
      NonNegativeInteger encoding, big-endian in 1, 2, 4 or 8 bytes. */
  function NumberComponent(n: nat): (c: Component)
    ensures c.typ == GENERIC_TYPE && 1 <= |c.value| <= 8
  {
    var bytes :=
      if n < 0x100 then BigEndian(n, 1)
      else if n < 0x1_0000 then BigEndian(n, 2)
      else if n < 0x1_0000_0000 then BigEndian(n, 4)
      else BigEndian(n, 8);
    Component(GENERIC_TYPE, bytes)
  }

  function BigEndian(n: nat, width: nat): (bytes: seq<Byte>)
    ensures |bytes| == width
    decreases width
  {
    if width == 0 then [] else BigEndian(n / 256, width - 1) + [(n % 256) as Byte]
  }
}

=== FILE: packets.dfy ===
/** Data packets, interests and the cryptographic primitives the repository
    calls. SHA-256 and the TLV wire encoders belong to the NDN library, which is
    not part of this model: they enter as the total functions of a `Crypto`
    record that every operation needing them receives as a parameter. */
module Packets {
  import opened Names
  import opened Wrappers

  /** `ndn::util::Sha256::DIGEST_SIZE`. */
  const DIGEST_SIZE: nat := 32

  type Digest = s: seq<Byte> | |s| == DIGEST_SIZE witness seq(32, _ => 0)

  /** The key locator of a signature: the name of the signing key. */
  datatype KeyLocator = KeyLocator(keyName: Name)

  /** A signed data packet. `finalSegment` is the packet's FinalBlockId when
      that component is a segment number (any other FinalBlockId reads as
      absent to the code modelled here). */
  datatype Data = Data(
    name: Name,
    content: seq<Byte>,
    keyLocator: Option<KeyLocator>,
    finalSegment: Option<nat>)

  /** An interest: the requested name and its lifetime in milliseconds. */
  datatype Interest = Interest(name: Name, lifetime: nat)

  /** The library functions the repository hands its bytes to. */
  datatype Crypto = Crypto(
    sha256: seq<Byte> -> Digest,
    encodeKeyLocator: KeyLocator -> seq<Byte>,
    encodeData: Data -> seq<Byte>)

  /** `Data::getFullName`: the name followed by the implicit digest of the
      packet's wire encoding. */
  function FullName(c: Crypto, d: Data): (full: Name)
    ensures |full| == |d.name| + 1 && d.name <= full
    ensures full[|d.name|].typ == IMPLICIT_DIGEST_TYPE
  {
    d.name + [Component(IMPLICIT_DIGEST_TYPE, c.sha256(c.encodeData(d)))]
  }

  /** Digest of a key locator's wire encoding. */
  function KeyLocatorDigest(c: Crypto, k: KeyLocator): Digest {
    c.sha256(c.encodeKeyLocator(k))
  }
}

=== FILE: repo_storage.dfy ===
/** `RepoStorage`, the façade the handles write through: de-duplicating
    insertion, prefix deletion and reads, over the SQLite table. Its two
    signals, `afterDataInsertion` and `afterDataDeletion`, become a list of
    `Notice`s returned beside the new table. */
module RepoStorage {
  import opened Names
  import opened Wrappers
  import opened Packets
  import opened SqliteStorage

  datatype Notice = DataInserted(name: Name) | DataDeleted(name: Name)

  // ---------------------------------------------------------------- insert

  /** `RepoStorage::insertData`: true at once when the full name is stored;
      otherwise one `insert`, false iff it returns -1, and one
      `afterDataInsertion` with the application name on success. */
  function InsertData(c: Crypto, t: Table, d: Data, fault: Fault): (r: Result<(bool, Table, seq<Notice>)>)
    requires Valid(t)
    ensures Has(t, FullName(c, d)) ==> r == Success((true, t, []))
    ensures !Has(t, FullName(c, d)) ==> (r.Success? <==> fault == NoFault && d.keyLocator.Some?)
    ensures r.Success? ==> r.value.0 && Valid(r.value.1) && Has(r.value.1, FullName(c, d))
    ensures !Has(t, FullName(c, d)) && r.Success? ==>
              && r.value.2 == [DataInserted(d.name)]
              && |r.value.1.rows| == |t.rows| + 1 && r.value.1.rows[..|t.rows|] == t.rows
              && r.value.1.rows[|t.rows|].name == FullName(c, d)
              && r.value.1.rows[|t.rows|].blob == Encoded(d)
  {
    if Has(t, FullName(c, d)) then Success((true, t, []))
    else
      var inserted :- Insert(c, t, d, fault);
      var (t', id) := inserted;
      InsertThenRead(c, t, d);
      assert t'.rows[..|t.rows|] == t.rows;
      if id == -1 then Success((false, t', []))
      else Success((true, t', [DataInserted(d.name)]))
  }

  /** A second insertion of the same packet is a successful no-op: the
      table keeps one row for the full name and no signal fires. */
  lemma InsertDataTwice(c: Crypto, t: Table, d: Data, fault: Fault)
    requires Valid(t)
    requires InsertData(c, t, d, NoFault).Success?
    ensures var t1 := InsertData(c, t, d, NoFault).value.1;
            InsertData(c, t1, d, fault) == Success((true, t1, []))
  {
  }

  /** `insertData` over the `insert` of the code as written: a row id that the
      32-bit truncation turns into -1 is reported as a failed insertion. */
  function InsertDataAsWritten(c: Crypto, t: Table, d: Data, fault: Fault): (r: Result<(bool, Table, seq<Notice>)>)
    requires Valid(t)
    ensures Has(t, FullName(c, d)) ==> r == Success((true, t, []))
    ensures r.Success? && !r.value.0 ==> r.value.2 == []
    ensures !Has(t, FullName(c, d)) ==> (r.Success? <==> InsertAsWritten(c, t, d, fault).Success?)
    ensures !Has(t, FullName(c, d)) && r.Success? ==>
              var (t', id) := InsertAsWritten(c, t, d, fault).value;
              && r.value.1 == t'
              && (r.value.0 <==> id != -1)
              && (r.value.0 ==> r.value.2 == [DataInserted(d.name)])
  {
    if Has(t, FullName(c, d)) then Success((true, t, []))
    else
      var inserted :- InsertAsWritten(c, t, d, fault);
      var (t', id) := inserted;
      if id == -1 then Success((false, t', []))
      else Success((true, t', [DataInserted(d.name)]))
  }

  /** With the AUTOINCREMENT counter at 2^32 - 2 the code as written stores
      the packet and still answers false, without the insertion signal; the
      corrected `insert` answers true and signals. */
  lemma InsertDataFalseAfterTruncation(c: Crypto, d: Data)
    requires d.keyLocator.Some?
    ensures var t := Table([], 0, 0xFFFF_FFFE, 0);
            var (ok, t', notices) := InsertDataAsWritten(c, t, d, NoFault).value;
            !ok && Has(t', FullName(c, d)) && notices == []
    ensures var t := Table([], 0, 0xFFFF_FFFE, 0);
            InsertData(c, t, d, NoFault) == Success((true, Insert(c, t, d, NoFault).value.0, [DataInserted(d.name)]))
  {
    var t := Table([], 0, 0xFFFF_FFFE, 0);
    RowIdTruncatedToMinusOne(c, d);
    var t' := InsertAsWritten(c, t, d, NoFault).value.0;
    assert t'.rows[0].name == FullName(c, d);
  }

  // ---------------------------------------------------------------- delete

  /** `Storage::erase(Name)` as the façade calls it: the row an exact find
      reports, erased by id (id 0 matches no row). */
  function EraseByName(t: Table, n: Name): (r: (bool, Table))
    requires Valid(t)
    ensures r.0 <==> HasRowNamed(t, n)
    ensures Valid(r.1) && r.1.sequence == t.sequence
    ensures !r.0 ==> r.1 == t
    ensures r.0 ==> exists k :: 0 <= k < |t.rows| && t.rows[k].name == n && r.1.rows == t.rows[..k] + t.rows[k + 1..]
  {
    var (id, _) := FindExact(t, n);
    IdsUnique(t);
    Erase(t, id)
  }

  /** The application name of a stored full name: all but the digest. */
  function DeletionNotice(found: Name): (n: Name)
    ensures |found| > 0 ==> |n| == |found| - 1 && n <= found
  {
    if |found| == 0 then [] else found[..|found| - 1]
  }

  /** What the deletion signal names for a packet is the packet's own name. */
  lemma DeletionNoticeOfFullName(c: Crypto, d: Data)
    ensures DeletionNotice(FullName(c, d)) == d.name
  {
  }

  /** Number of rows whose name extends `q`. */
  function Matching(rows: seq<Row>, q: Name): nat {
    if |rows| == 0 then 0
    else (if q <= rows[0].name then 1 else 0) + Matching(rows[1..], q)
  }

  /** The rows whose name does not extend `q`, in order. */
  function Survivors(rows: seq<Row>, q: Name): seq<Row> {
    if |rows| == 0 then []
    else (if q <= rows[0].name then [] else [rows[0]]) + Survivors(rows[1..], q)
  }

  /** The deletion signals of the rows whose name extends `q`: the
      application name of each, as many times as such rows carry it. */
  function DeletionSignals(rows: seq<Row>, q: Name): multiset<Notice> {
    if |rows| == 0 then multiset{}
    else (if q <= rows[0].name then multiset{DataDeleted(DeletionNotice(rows[0].name))} else multiset{})
         + DeletionSignals(rows[1..], q)
  }

  lemma {:induction false} DeletionSignalsSplit(a: seq<Row>, b: seq<Row>, q: Name)
    ensures DeletionSignals(a + b, q) == DeletionSignals(a, q) + DeletionSignals(b, q)
    decreases |a|
  {
    if |a| == 0 {
      assert a + b == b;
    } else {
      assert (a + b)[0] == a[0] && (a + b)[1..] == a[1..] + b;
      DeletionSignalsSplit(a[1..], b, q);
    }
  }

  /** Removing one row that extends `q` removes exactly its signal. */
  lemma DeletionSignalsRemove(rows: seq<Row>, k: nat, q: Name)
    requires k < |rows| && q <= rows[k].name
    ensures DeletionSignals(rows[..k] + rows[k + 1..], q) + multiset{DataDeleted(DeletionNotice(rows[k].name))}
         == DeletionSignals(rows, q)
  {
    assert rows == rows[..k] + [rows[k]] + rows[k + 1..];
    DeletionSignalsSplit(rows[..k] + [rows[k]], rows[k + 1..], q);
    DeletionSignalsSplit(rows[..k], [rows[k]], q);
    DeletionSignalsSplit(rows[..k], rows[k + 1..], q);
    assert [rows[k]][1..] == [];
  }

  lemma {:induction false} MatchingSplit(a: seq<Row>, b: seq<Row>, q: Name)
    ensures Matching(a + b, q) == Matching(a, q) + Matching(b, q)
    ensures Survivors(a + b, q) == Survivors(a, q) + Survivors(b, q)
    decreases |a|
  {
    if |a| == 0 {
      assert a + b == b;
    } else {
      var head := if q <= a[0].name then [] else [a[0]];
      assert (a + b)[0] == a[0] && (a + b)[1..] == a[1..] + b;
      MatchingSplit(a[1..], b, q);
      assert Survivors(a + b, q) == head + Survivors(a[1..] + b, q);
      assert head + (Survivors(a[1..], q) + Survivors(b, q)) == (head + Survivors(a[1..], q)) + Survivors(b, q);
    }
  }

  /** Removing one row that extends `q` lowers the match count by one and
      keeps the survivors. */
  lemma RemoveMatching(rows: seq<Row>, k: nat, q: Name)
    requires k < |rows| && q <= rows[k].name
    ensures Matching(rows[..k] + rows[k + 1..], q) == Matching(rows, q) - 1
    ensures Survivors(rows[..k] + rows[k + 1..], q) == Survivors(rows, q)
  {
    assert rows == rows[..k] + [rows[k]] + rows[k + 1..];
    MatchingSplit(rows[..k] + [rows[k]], rows[k + 1..], q);
    MatchingSplit(rows[..k], [rows[k]], q);
    MatchingSplit(rows[..k], rows[k + 1..], q);
    assert [rows[k]][1..] == [];
  }

  /** No row extends `q` iff the match count is zero iff every row
      survives. */
  lemma {:induction false} NoMatchAllSurvive(rows: seq<Row>, q: Name)
    ensures Matching(rows, q) == 0 <==> forall k :: 0 <= k < |rows| ==> !(q <= rows[k].name)
    ensures Matching(rows, q) == 0 ==> Survivors(rows, q) == rows && DeletionSignals(rows, q) == multiset{}
    decreases |rows|
  {
    if |rows| > 0 {
      NoMatchAllSurvive(rows[1..], q);
      assert forall k :: 1 <= k < |rows| ==> rows[k] == rows[1..][k - 1];
      if Matching(rows, q) == 0 {
        assert rows == [rows[0]] + rows[1..];
      }
    }
  }

  /** Some erase attempt among the `count` attempts from `first` on fails. */
  predicate FailsWithin(fails: set<nat>, first: nat, count: nat)
    decreases count
  {
    count > 0 && (first in fails || FailsWithin(fails, first + 1, count - 1))
  }

  lemma FailsWithinStep(fails: set<nat>, first: nat, count: nat, count': nat)
    ensures count == count' + 1 ==>
              (FailsWithin(fails, first, count) <==> first in fails || FailsWithin(fails, first + 1, count'))
  {
  }

  lemma {:induction false} FailsWithinIff(fails: set<nat>, first: nat, count: nat)
    ensures FailsWithin(fails, first, count) <==> exists a :: first <= a < first + count && a in fails
    decreases count
  {
    if count > 0 {
      FailsWithinIff(fails, first + 1, count - 1);
    }
  }

  /** One erase attempt of the loop on the name found: a failed attempt
      leaves the table as it was. */
  function EraseAttempt(t: Table, found: Name, fails: set<nat>, attempt: nat): (r: (bool, Table))
    requires Valid(t)
    ensures Valid(r.1)
    ensures !r.0 ==> r.1 == t
    ensures r.0 <==> attempt !in fails && HasRowNamed(t, found)
  {
    if attempt in fails then (false, t) else EraseByName(t, found)
  }

  /** A successful erase attempt removes exactly one row carrying the name. */
  lemma EraseAttemptRemoves(t: Table, found: Name, fails: set<nat>, attempt: nat)
    requires Valid(t)
    ensures var r := EraseAttempt(t, found, fails, attempt);
            r.0 ==> exists k :: 0 <= k < |t.rows| && t.rows[k].name == found && r.1.rows == t.rows[..k] + t.rows[k + 1..]
  {
  }

  /** What the `deleteData` loop accumulates: the erase count, whether some
      erase failed, the table left behind and the signals fired. */
  datatype Outcome = Outcome(erased: nat, failed: bool, table: Table, notices: seq<Notice>)

  /** The `deleteData` loop from one attempt on. `fails(a)` says whether the
      erase of attempt `a` reports failure, which leaves the table as it was.
      `fuel` bounds the number of rounds; `None` means the loop has not
      finished within it. */
  function DeleteLoop(t: Table, q: Name, fails: set<nat>, attempt: nat, fuel: nat): (r: Option<Outcome>)
    requires Valid(t)
    ensures r.Some? ==> && Valid(r.value.table)
                        && r.value.table.rows == Survivors(t.rows, q)
                        && r.value.erased == Matching(t.rows, q)
                        && |r.value.notices| == Matching(t.rows, q)
    ensures r.Some? ==> multiset(r.value.notices) == DeletionSignals(t.rows, q)
    ensures r.Some? ==> (r.value.failed <==> FailsWithin(fails, attempt, Matching(t.rows, q)))
    ensures fuel >= Matching(t.rows, q) && !FailsWithin(fails, attempt, Matching(t.rows, q)) ==> r.Some?
    decreases fuel
  {
    var found := FindPrefix(t, q);
    FoundIffMatching(t, q);
    if found.0 == 0 then Some(Outcome(0, false, t, []))
    else if fuel == 0 then None
    else
      var step := EraseAttempt(t, found.1, fails, attempt);
      LoopStep(t, q, fails, attempt);
      StepDeletions(t, q, fails, attempt);
      FailsWithinStep(fails, attempt, Matching(t.rows, q), Matching(step.1.rows, q));
      var rest := DeleteLoop(step.1, q, fails, attempt + 1, fuel - 1);
      if rest.None? then None
      else if step.0 then
        var notice := DataDeleted(DeletionNotice(found.1));
        ConsMultiset(notice, rest.value.notices);
        Some(rest.value.(erased := rest.value.erased + 1,
                         notices := [notice] + rest.value.notices))
      else Some(rest.value.(failed := true))
  }

  lemma ConsMultiset(x: Notice, s: seq<Notice>)
    ensures multiset([x] + s) == multiset{x} + multiset(s)
  {
  }

  /** `RepoStorage::deleteData(name)`: erase what a prefix find reports until
      it reports nothing; the count of erases, or -1 after any failure. */
  function DeleteData(t: Table, q: Name, fails: set<nat>, fuel: nat): (r: Option<(int, Table, seq<Notice>)>)
    requires Valid(t)
    ensures r.Some? ==> && Valid(r.value.1)
                        && r.value.1.rows == Survivors(t.rows, q)
                        && (r.value.0 == -1 || r.value.0 == Matching(t.rows, q))
                        && |r.value.2| == Matching(t.rows, q)
    ensures r.Some? ==> multiset(r.value.2) == DeletionSignals(t.rows, q)
    ensures r.Some? ==> (r.value.0 == -1 <==> FailsWithin(fails, 0, Matching(t.rows, q)))
    ensures fuel >= Matching(t.rows, q) && !FailsWithin(fails, 0, Matching(t.rows, q)) ==>
              r.Some? && r.value.0 == Matching(t.rows, q)
  {
    match DeleteLoop(t, q, fails, 0, fuel)
    case None => None
    case Some(o) => Some((if o.failed then -1 else o.erased, o.table, o.notices))
  }

  /** `deleteData` finishes exactly when its loop does, and reports -1
      exactly when the loop saw a failed erase. */
  lemma DeleteDataRunsLoop(t: Table, q: Name, fails: set<nat>, fuel: nat)
    requires Valid(t)
    ensures DeleteData(t, q, fails, fuel).Some? <==> DeleteLoop(t, q, fails, 0, fuel).Some?
    ensures DeleteData(t, q, fails, fuel).Some? ==>
              (DeleteData(t, q, fails, fuel).value.0 == -1 <==> DeleteLoop(t, q, fails, 0, fuel).value.failed)
  {
  }

  /** `deleteData(interest)`: the same deletion on the interest's name. */
  function DeleteDataForInterest(t: Table, i: Interest, fails: set<nat>, fuel: nat): (r: Option<(int, Table, seq<Notice>)>)
    requires Valid(t)
    ensures r == DeleteData(t, i.name, fails, fuel)
  {
    DeleteData(t, i.name, fails, fuel)
  }

  /** The prefix find reports a row exactly when some row matches; when it
      reports none, every row survives. */
  lemma FoundIffMatching(t: Table, q: Name)
    requires Valid(t)
    ensures FindPrefix(t, q).0 != 0 <==> Matching(t.rows, q) > 0
    ensures FindPrefix(t, q).0 == 0 ==> Survivors(t.rows, q) == t.rows && DeletionSignals(t.rows, q) == multiset{}
  {
    FindPrefixIffExtensionStored(t, q);
    NoMatchAllSurvive(t.rows, q);
  }

  /** One round of the loop on a reported row: the erase succeeds exactly
      when the attempt does not fail, and then removes one match and no
      survivor. */
  lemma LoopStep(t: Table, q: Name, fails: set<nat>, attempt: nat)
    requires Valid(t) && FindPrefix(t, q).0 != 0
    ensures var step := EraseAttempt(t, FindPrefix(t, q).1, fails, attempt);
            && (step.0 <==> attempt !in fails)
            && (step.0 ==> Matching(step.1.rows, q) == Matching(t.rows, q) - 1)
            && (step.0 ==> Survivors(step.1.rows, q) == Survivors(t.rows, q))
  {
    var found := FindPrefix(t, q);
    var step := EraseAttempt(t, found.1, fails, attempt);
    assert HasRowNamed(t, found.1);
    EraseAttemptRemoves(t, found.1, fails, attempt);
    if step.0 {
      var k :| 0 <= k < |t.rows| && t.rows[k].name == found.1 && step.1.rows == t.rows[..k] + t.rows[k + 1..];
      RemoveMatching(t.rows, k, q);
    }
  }

  /** A successful round removes exactly the signal of the row it erased. */
  lemma StepDeletions(t: Table, q: Name, fails: set<nat>, attempt: nat)
    requires Valid(t) && FindPrefix(t, q).0 != 0
    ensures var found := FindPrefix(t, q).1;
            var step := EraseAttempt(t, found, fails, attempt);
            step.0 ==> DeletionSignals(step.1.rows, q) + multiset{DataDeleted(DeletionNotice(found))}
                       == DeletionSignals(t.rows, q)
  {
    var found := FindPrefix(t, q).1;
    var step := EraseAttempt(t, found, fails, attempt);
    EraseAttemptRemoves(t, found, fails, attempt);
    if step.0 {
      var k :| 0 <= k < |t.rows| && t.rows[k].name == found && step.1.rows == t.rows[..k] + t.rows[k + 1..];
      DeletionSignalsRemove(t.rows, k, q);
    }
  }

  /** `deleteData` without erase failures: it finishes within as many rounds
      as there are matching rows, returns their number, and leaves exactly the
      other rows. */
  lemma DeleteDataWithoutFailures(t: Table, q: Name, fuel: nat)
    requires Valid(t)
    requires fuel >= Matching(t.rows, q)
    ensures var r := DeleteData(t, q, {}, fuel);
            r.Some? && r.value.0 == Matching(t.rows, q) && r.value.1.rows == Survivors(t.rows, q)
            && FindPrefix(r.value.1, q).0 == 0
  {
    FailsWithinIff({}, 0, Matching(t.rows, q));
    var r := DeleteData(t, q, {}, fuel);
    SurvivorsDoNotMatch(r.value.1, t.rows, q);
  }

  /** A table whose rows are survivors of `q` has nothing the prefix find
      could report. */
  lemma SurvivorsDoNotMatch(t: Table, rows: seq<Row>, q: Name)
    requires Valid(t) && t.rows == Survivors(rows, q)
    ensures FindPrefix(t, q).0 == 0
  {
    SurvivorsNeverMatch(rows, q);
    FoundIffMatching(t, q);
  }

  lemma {:induction false} SurvivorsNeverMatch(rows: seq<Row>, q: Name)
    ensures Matching(Survivors(rows, q), q) == 0
    decreases |rows|
  {
    if |rows| > 0 {
      SurvivorsNeverMatch(rows[1..], q);
      var head := if q <= rows[0].name then [] else [rows[0]];
      MatchingSplit(head, Survivors(rows[1..], q), q);
    }
  }

  /** A failing erase leaves the match in place, so when every erase from some
      attempt on fails and a row matches, the loop never finishes. */
  lemma {:induction false} DeleteLoopSpins(t: Table, q: Name, fails: set<nat>, attempt: nat, fuel: nat)
    requires Valid(t)
    requires exists k :: 0 <= k < |t.rows| && q <= t.rows[k].name
    requires forall a :: attempt <= a < attempt + fuel ==> a in fails
    ensures DeleteLoop(t, q, fails, attempt, fuel).None?
    decreases fuel
  {
    FindPrefixIffExtensionStored(t, q);
    if fuel > 0 {
      DeleteLoopSpins(t, q, fails, attempt + 1, fuel - 1);
    }
  }

  /** One failed erase is enough for -1, though every match is still erased
      on a later attempt. */
  lemma OneFailureReportsMinusOne(t: Table, q: Name, fuel: nat)
    requires Valid(t)
    requires exists k :: 0 <= k < |t.rows| && q <= t.rows[k].name
    requires fuel >= Matching(t.rows, q) + 1
    ensures var r := DeleteData(t, q, {0}, fuel);
            r.Some? && r.value.0 == -1 && r.value.1.rows == Survivors(t.rows, q)
  {
    NoMatchAllSurvive(t.rows, q);
    FoundIffMatching(t, q);
    LoopStep(t, q, {0}, 0);
    FailsWithinIff({0}, 1, Matching(t.rows, q));
    var rest := DeleteLoop(t, q, {0}, 1, fuel - 1);
    assert DeleteLoop(t, q, {0}, 0, fuel) == Some(rest.value.(failed := true));
  }

  // ------------------------------------------------ deletion, as written

  const SIZE_MAX: nat := 0xFFFF_FFFF_FFFF_FFFF

  /** An `ssize_t` argument passed where `size_t` is expected. */
  function ToSizeT(x: int): (n: nat)
    ensures n <= SIZE_MAX && (n - x) % (SIZE_MAX + 1) == 0
  {
    x % (SIZE_MAX + 1)
  }

  /** `Name::getSubName(iStartComponent, nComponents)` for a start inside
      the name: at most `count` components from `start`. */
  function GetSubName(n: Name, start: nat, count: nat): (r: Name)
    requires start <= |n|
    ensures |r| <= count && r <= n[start..]
    ensures start + count >= |n| ==> r == n[start..]
  {
    n[start..if start + count < |n| then start + count else |n|]
  }

  /** The name `afterDataDeletion` receives in the code as written:
      `getSubName(0, -2)`, whose count -2 becomes 2^64 - 2 components. */
  function DeletionNoticeAsWritten(found: Name): (r: Name)
    ensures |found| <= SIZE_MAX - 1 ==> r == found
  {
    GetSubName(found, 0, ToSizeT(-2))
  }

  /** The deletion signal as written carries the whole full name, digest
      included, instead of the packet's name. */
  lemma DeletionNoticeKeepsDigest(c: Crypto, d: Data)
    requires |d.name| < SIZE_MAX - 2
    ensures DeletionNoticeAsWritten(FullName(c, d)) == FullName(c, d)
    ensures DeletionNoticeAsWritten(FullName(c, d)) != DeletionNotice(FullName(c, d))
  {
    assert ToSizeT(-2) == SIZE_MAX - 1;
  }

  // ---------------------------------------------------------------- read

  /** `RepoStorage::readData(interest)`: the storage's `read` of the
      interest's name, so the packet returned is stored under a name the
      interest's name is a prefix of. */
  function ReadData(t: Table, i: Interest): (r: Option<Data>)
    requires Valid(t)
    ensures r == Read(t, i.name)
    ensures FindPrefix(t, i.name).0 != 0 ==> r == SqliteStorage.ReadData(t, FindPrefix(t, i.name).0)
    ensures r.Some? ==> exists k :: 0 <= k < |t.rows| && i.name <= t.rows[k].name && t.rows[k].blob == Encoded(r.value)
    ensures (forall k :: 0 <= k < |t.rows| ==> !(i.name <= t.rows[k].name)) ==> r.None?
  {
    FindPrefixIffExtensionStored(t, i.name);
    Read(t, i.name)
  }

  /** A packet inserted through the façade is what an interest for its name
      reads back, when no earlier row already extends that name. */
  lemma InsertThenReadData(c: Crypto, t: Table, d: Data, lifetime: nat)
    requires Valid(t) && d.keyLocator.Some?
    requires forall k :: 0 <= k < |t.rows| ==> !(d.name <= t.rows[k].name)
    ensures var r := InsertData(c, t, d, NoFault);
            r.Success? && ReadData(r.value.1, Interest(d.name, lifetime)) == Some(d)
  {
    assert !Has(t, FullName(c, d));
    InsertThenReadByName(c, t, d);
  }
}

=== FILE: sqlite_storage.dfy ===
/** The SQLite back end: the table `NDN_REPO(id INTEGER PRIMARY KEY
    AUTOINCREMENT, name BLOB, data BLOB, keylocatorHash BLOB)` as a sequence
    of rows in id order, plus the `m_size` counter the class keeps beside it.
    The table has no UNIQUE constraint on `name`, so two rows may carry the same
    full name. SQL errors are a `Fault` the caller passes in. */
module SqliteStorage {
  import opened Names
  import opened Wrappers
  import opened Packets
  import opened Storage

  const SOME_ERROR := "Some error with insert"
  const INSERT_FAILED := "Insert failed"

  /** The `data` column: a wire encoding that decodes to a packet, or bytes
      that do not decode (a damaged database file). */
  datatype Blob = Encoded(data: Data) | Undecodable(bytes: seq<Byte>)

  datatype Row = Row(id: int, name: Name, blob: Blob, keyLocatorHash: Digest)

  /** `sequence` is the AUTOINCREMENT counter (the largest id ever handed
      out); `lastInsertRowid` is what `sqlite3_last_insert_rowid` reports for
      this connection (0 before the first insert). */
  datatype Table = Table(rows: seq<Row>, mSize: int, sequence: int, lastInsertRowid: int)

  /** How the `sqlite3_bind_*` / `sqlite3_step` calls of one insert end. */
  datatype Fault = NoFault | BindFailure | ConstraintViolation | StepError

  /** Rows are kept in increasing, positive id order, below the counter. */
  ghost predicate Valid(t: Table) {
    && t.sequence >= 0
    && (forall i, j :: 0 <= i < j < |t.rows| ==> t.rows[i].id < t.rows[j].id)
    && (forall k :: 0 <= k < |t.rows| ==> 1 <= t.rows[k].id <= t.sequence)
  }

  function Empty(): (t: Table)
    ensures Valid(t) && t.rows == [] && t.mSize == 0
  {
    Table([], 0, 0, 0)
  }

  ghost predicate HasRowNamed(t: Table, n: Name) {
    exists k :: 0 <= k < |t.rows| && t.rows[k].name == n
  }

  ghost predicate HasRowId(t: Table, id: int) {
    exists k :: 0 <= k < |t.rows| && t.rows[k].id == id
  }

  // ---------------------------------------------------------------- find

  /** Position of the first row whose name equals `n`. */
  function FirstNamed(rows: seq<Row>, n: Name): (r: Option<nat>)
    ensures r.Some? ==> r.value < |rows| && rows[r.value].name == n
    ensures r.Some? ==> forall k :: 0 <= k < r.value ==> rows[k].name != n
    ensures r.None? ==> forall k :: 0 <= k < |rows| ==> rows[k].name != n
  {
    if |rows| == 0 then None
    else if rows[0].name == n then Some(0)
    else match FirstNamed(rows[1..], n)
      case None => None
      case Some(k) => Some(k + 1)
  }

  /** `SELECT * FROM NDN_REPO WHERE name = ?`: the first matching row, or
      `(0, empty name)`. */
  function FindExact(t: Table, n: Name): (r: (int, Name))
    requires Valid(t)
    ensures r.0 != 0 <==> HasRowNamed(t, n)
    ensures r.0 != 0 ==> r.1 == n && exists k :: 0 <= k < |t.rows| && t.rows[k] .id == r.0 && t.rows[k].name == n
    ensures r.0 == 0 ==> r.1 == []
  {
    match FirstNamed(t.rows, n)
    case Some(k) => (t.rows[k].id, t.rows[k].name)
    case None => (0, [])
  }

  /** Position of the row `SELECT ... WHERE name >= ? ORDER BY name ASC LIMIT
      1` yields: a least name not below `q`, the earliest such row on ties. */
  function LeastNotBelow(rows: seq<Row>, q: Name): (r: Option<nat>)
    ensures r.Some? ==> r.value < |rows|
  {
    if |rows| == 0 then None
    else
      var n := |rows| - 1;
      var best := LeastNotBelow(rows[..n], q);
      if NameLe(q, rows[n].name) && (best.None? || NameLess(rows[n].name, rows[best.value].name)) then Some(n)
      else best
  }

  /** The row chosen is not below the query, no row not below the query sorts
      before it, no earlier row has its name, and there is none exactly when
      every row sorts below the query. */
  lemma {:induction false} LeastNotBelowIsLeast(rows: seq<Row>, q: Name)
    ensures LeastNotBelow(rows, q).None? <==> forall k :: 0 <= k < |rows| ==> !NameLe(q, rows[k].name)
    ensures var r := LeastNotBelow(rows, q);
            r.Some? ==> NameLe(q, rows[r.value].name)
    ensures var r := LeastNotBelow(rows, q);
            r.Some? ==> forall k :: 0 <= k < |rows| && NameLe(q, rows[k].name) ==> NameLe(rows[r.value].name, rows[k].name)
    ensures var r := LeastNotBelow(rows, q);
            r.Some? ==> forall k :: 0 <= k < r.value ==> rows[k].name != rows[r.value].name
    decreases |rows|
  {
    if |rows| > 0 {
      var n := |rows| - 1;
      var front := rows[..n];
      LeastNotBelowIsLeast(front, q);
      var best := LeastNotBelow(front, q);
      assert forall k :: 0 <= k < n ==> rows[k] == front[k];
      if NameLe(q, rows[n].name) && (best.None? || NameLess(rows[n].name, rows[best.value].name)) {
        forall k | 0 <= k < |rows| && NameLe(q, rows[k].name)
          ensures NameLe(rows[n].name, rows[k].name)
        {
          if k < n {
            NameLessThenLe(rows[n].name, rows[best.value].name, rows[k].name);
          }
        }
        forall k | 0 <= k < n
          ensures rows[k].name != rows[n].name
        {
          if NameLe(q, rows[k].name) {
            NameLessThenLe(rows[n].name, rows[best.value].name, rows[k].name);
            NameOrderStrictTotal();
          }
        }
      } else if best.Some? && NameLe(q, rows[n].name) {
        NameNotLessIsGe(rows[n].name, rows[best.value].name);
      }
    }
  }

  /** `find(name, false)`: the row `LeastNotBelow` picks, kept only when the
      query is a prefix of its name. */
  function FindPrefix(t: Table, q: Name): (r: (int, Name))
    ensures r == (0, []) || (q <= r.1 && exists k :: 0 <= k < |t.rows| && t.rows[k].id == r.0 && t.rows[k].name == r.1)
  {
    match LeastNotBelow(t.rows, q)
    case Some(k) =>
      if q <= t.rows[k].name then (t.rows[k].id, t.rows[k].name) else (0, [])
    case None => (0, [])
  }

  /** `SqliteStorage::find(name, exactMatch)`. */
  function Find(t: Table, q: Name, exactMatch: bool): (r: (int, Name))
    requires Valid(t)
    ensures exactMatch ==> r == FindExact(t, q)
    ensures !exactMatch ==> r == FindPrefix(t, q)
  {
    if exactMatch then FindExact(t, q) else FindPrefix(t, q)
  }

  /** Prefix completeness of the SQL lower bound: the prefix query reports a
      row exactly when some stored name extends the query. */
  lemma FindPrefixIffExtensionStored(t: Table, q: Name)
    requires Valid(t)
    ensures FindPrefix(t, q).0 != 0 <==> exists k :: 0 <= k < |t.rows| && q <= t.rows[k].name
  {
    FindPrefixReturnsLeast(t, q);
  }

  /** When some stored name extends the query, the prefix query reports one,
      and a least one. */
  lemma FindPrefixReturnsLeast(t: Table, q: Name)
    requires Valid(t)
    ensures (exists k :: 0 <= k < |t.rows| && q <= t.rows[k].name) ==> FindPrefix(t, q).0 != 0
    ensures FindPrefix(t, q).0 != 0 ==> forall k :: 0 <= k < |t.rows| && q <= t.rows[k].name ==> NameLe(FindPrefix(t, q).1, t.rows[k].name)
  {
    LeastNotBelowIsLeast(t.rows, q);
    var r := LeastNotBelow(t.rows, q);
    forall k | 0 <= k < |t.rows| && q <= t.rows[k].name
      ensures r.Some? && q <= t.rows[r.value].name
      ensures NameLe(t.rows[r.value].name, t.rows[k].name)
    {
      NamePrefixSortsFirst(q, t.rows[k].name);
      NamePrefixBetween(q, t.rows[r.value].name, t.rows[k].name);
    }
    if r.Some? && q <= t.rows[r.value].name {
      assert t.rows[r.value].id >= 1;
    }
  }

  /** `SqliteStorage::has`: an exact find with a nonzero id. */
  function Has(t: Table, n: Name): (r: bool)
    requires Valid(t)
    ensures r <==> HasRowNamed(t, n)
  {
    FindExact(t, n).0 != 0
  }

  // ---------------------------------------------------------------- read

  /** Position of the row with this id. */
  function RowWithId(rows: seq<Row>, id: int): (r: Option<nat>)
    ensures r.Some? ==> r.value < |rows| && rows[r.value].id == id
    ensures r.None? ==> forall k :: 0 <= k < |rows| ==> rows[k].id != id
  {
    if |rows| == 0 then None
    else if rows[0].id == id then Some(0)
    else match RowWithId(rows[1..], id)
      case None => None
      case Some(k) => Some(k + 1)
  }

  /** `SqliteStorage::readData(id)`: the decoded packet, or null when no row
      has the id or its blob does not decode. */
  function ReadData(t: Table, id: int): (r: Option<Data>)
    requires Valid(t)
    ensures r.Some? <==> exists k :: 0 <= k < |t.rows| && t.rows[k].id == id && t.rows[k].blob.Encoded?
    ensures r.Some? ==> exists k :: 0 <= k < |t.rows| && t.rows[k].id == id && t.rows[k].blob == Encoded(r.value)
  {
    match RowWithId(t.rows, id)
    case Some(k) => if t.rows[k].blob.Encoded? then Some(t.rows[k].blob.data) else None
    case None =>
      IdsUnique(t);
      None
  }

  /** Ids are unique, so a row is the only one with its id. */
  lemma IdsUnique(t: Table)
    requires Valid(t)
    ensures forall i, j :: 0 <= i < |t.rows| && 0 <= j < |t.rows| && t.rows[i].id == t.rows[j].id ==> i == j
  {
  }

  /** `SqliteStorage::read(name)`: a prefix find, then `readData` of the id
      found; null when the find reports id 0. */
  function Read(t: Table, q: Name): (r: Option<Data>)
    requires Valid(t)
    ensures FindPrefix(t, q).0 == 0 ==> r.None?
    ensures FindPrefix(t, q).0 != 0 ==> r == ReadData(t, FindPrefix(t, q).0)
    ensures r.Some? ==> exists k :: 0 <= k < |t.rows| && q <= t.rows[k].name && t.rows[k].blob == Encoded(r.value)
  {
    var (id, found) := FindPrefix(t, q);
    if id == 0 then None
    else
      var r := ReadData(t, id);
      IdsUnique(t);
      r
  }

  /** `SqliteStorage::size`: `SELECT count(*)`, whatever `m_size` says. */
  function Size(t: Table): (n: int)
    ensures n >= 0 && n == |t.rows|
  {
    |t.rows|
  }

  // ---------------------------------------------------------------- erase

  /** `SqliteStorage::erase(id)`: `DELETE ... WHERE id = ?`; true and
      `m_size - 1` iff exactly one row changed. */
  function Erase(t: Table, id: int): (r: (bool, Table))
    requires Valid(t)
    ensures r.0 <==> HasRowId(t, id)
    ensures !r.0 ==> r.1 == t
    ensures r.0 ==> r.1.mSize == t.mSize - 1 && r.1.sequence == t.sequence && |r.1.rows| == |t.rows| - 1
    ensures r.0 ==> exists k :: 0 <= k < |t.rows| && t.rows[k].id == id && r.1.rows == t.rows[..k] + t.rows[k + 1..]
    ensures Valid(r.1) && !HasRowId(r.1, id)
  {
    match RowWithId(t.rows, id)
    case Some(k) =>
      var rows' := t.rows[..k] + t.rows[k + 1..];
      RemoveKeepsValid(t, k);
      (true, t.(rows := rows', mSize := t.mSize - 1))
    case None => (false, t)
  }

  lemma RemoveKeepsValid(t: Table, k: nat)
    requires Valid(t) && k < |t.rows|
    ensures Valid(t.(rows := t.rows[..k] + t.rows[k + 1..]))
  {
    var rows' := t.rows[..k] + t.rows[k + 1..];
    assert forall j :: 0 <= j < |rows'| ==> rows'[j] == t.rows[if j < k then j else j + 1];
  }

  // ---------------------------------------------------------------- insert

  /** The row `insert` writes for a packet, under the given id. */
  function RowOf(c: Crypto, d: Data, hash: Digest, id: int): Row {
    Row(id, FullName(c, d), Encoded(d), hash)
  }

  /** `SqliteStorage::insert`, as it is evidently meant to behave: every failed
      bind or step raises, and the 64-bit row id is returned in full. The
      AUTOINCREMENT id is one past the largest id ever handed out. */
  function Insert(c: Crypto, t: Table, d: Data, fault: Fault): (r: Result<(Table, int)>)
    requires Valid(t)
    ensures r.Success? <==> fault == NoFault && d.keyLocator.Some?
    ensures fault == BindFailure ==> r == Failure(SOME_ERROR)
    ensures fault == NoFault && d.keyLocator.None? ==> r == Failure(NO_KEY_LOCATOR)
    ensures fault == ConstraintViolation || fault == StepError ==> r.Failure?
    ensures r.Success? ==> var (t', id) := r.value;
      && Valid(t') && id >= 1 && !HasRowId(t, id)
      && t'.rows == t.rows + [RowOf(c, d, KeyLocatorDigest(c, d.keyLocator.value), id)]
      && t'.mSize == t.mSize + 1 && t'.lastInsertRowid == id
  {
    var name := FullName(c, d);
    if |name| == 0 then
      Success((t, -1))
    else if fault == BindFailure then
      Failure(SOME_ERROR)
    else
      var hash :- ComputeKeyLocatorHash(c, d);
      if fault != NoFault then Failure(INSERT_FAILED)
      else
        var id := t.sequence + 1;
        Success((Table(t.rows + [RowOf(c, d, hash, id)], t.mSize + 1, id, id), id))
  }

  /** The full name always ends in the implicit digest, so the "name is empty"
      branch of `insert` (which would return -1) is never taken. */
  lemma InsertNeverReportsEmptyName(c: Crypto, t: Table, d: Data, fault: Fault)
    requires Valid(t)
    ensures Insert(c, t, d, fault).Success? ==> Insert(c, t, d, fault).value.1 != -1
    ensures |FullName(c, d)| >= 1
  {
  }

  /** What was inserted reads back: the packet under the new id, and `has` of
      its full name. */
  lemma InsertThenRead(c: Crypto, t: Table, d: Data)
    requires Valid(t) && d.keyLocator.Some?
    ensures var (t', id) := Insert(c, t, d, NoFault).value;
            ReadData(t', id) == Some(d) && Has(t', FullName(c, d)) && Size(t') == Size(t) + 1
  {
    var (t', id) := Insert(c, t, d, NoFault).value;
    assert t'.rows[|t.rows|].id == id;
    IdsUnique(t');
  }

  /** Reading by the packet's own name returns it after the insert, when no
      earlier row already extends that name. */
  lemma InsertThenReadByName(c: Crypto, t: Table, d: Data)
    requires Valid(t) && d.keyLocator.Some?
    requires forall k :: 0 <= k < |t.rows| ==> !(d.name <= t.rows[k].name)
    ensures var (t', id) := Insert(c, t, d, NoFault).value;
            FindPrefix(t', d.name) == (id, FullName(c, d)) && Read(t', d.name) == Some(d)
  {
    var (t', id) := Insert(c, t, d, NoFault).value;
    var n := |t.rows|;
    assert t'.rows[n].id == id && t'.rows[n].name == FullName(c, d);
    assert forall k :: 0 <= k < n ==> t'.rows[k] == t.rows[k];
    FindPrefixIffExtensionStored(t', d.name);
    var (fid, found) := FindPrefix(t', d.name);
    var k :| 0 <= k < |t'.rows| && t'.rows[k].id == fid && t'.rows[k].name == found && d.name <= found;
    assert k == n;
    InsertThenRead(c, t, d);
  }

  /** Erasing the id an insert returned restores the rows and the counter;
      only the AUTOINCREMENT counter remembers the id. */
  lemma InsertThenEraseRestores(c: Crypto, t: Table, d: Data)
    requires Valid(t) && d.keyLocator.Some?
    ensures var (t', id) := Insert(c, t, d, NoFault).value;
            var (ok, t'') := Erase(t', id);
            ok && t''.rows == t.rows && t''.mSize == t.mSize && ReadData(t'', id).None?
  {
    var (t', id) := Insert(c, t, d, NoFault).value;
    assert t'.rows[|t.rows|].id == id;
    IdsUnique(t');
    assert t'.rows[..|t.rows|] == t.rows;
  }

  // ------------------------------------------------ insert, as written

  /** Two's-complement truncation of a 64-bit value to a 32-bit `int`. */
  function ToInt32(x: int): (y: int)
    ensures -0x8000_0000 <= y < 0x8000_0000
    ensures (y - x) % 0x1_0000_0000 == 0
  {
    (x + 0x8000_0000) % 0x1_0000_0000 - 0x8000_0000
  }

  /** `SqliteStorage::insert` as the code reads: only `SQLITE_CONSTRAINT`
      from `sqlite3_step` raises; any other step error still bumps `m_size`
      and returns the connection's previous last row id; and that id passes
      through a 32-bit `int`. */
  function InsertAsWritten(c: Crypto, t: Table, d: Data, fault: Fault): (r: Result<(Table, int)>)
    requires Valid(t)
    ensures r.Success? <==> (fault == NoFault || fault == StepError) && d.keyLocator.Some?
    ensures fault == StepError && r.Success? ==> r.value.0 == t.(mSize := t.mSize + 1)
    ensures r.Success? ==> -0x8000_0000 <= r.value.1 < 0x8000_0000
    ensures fault == StepError && r.Success? ==> r.value.1 == ToInt32(t.lastInsertRowid)
    ensures fault == NoFault && d.keyLocator.Some? ==>
              && r.value.0.rows == t.rows + [RowOf(c, d, KeyLocatorDigest(c, d.keyLocator.value), t.sequence + 1)]
              && r.value.1 == ToInt32(t.sequence + 1)
    ensures fault != StepError ==>
              var corrected := Insert(c, t, d, fault);
              && (r.Success? <==> corrected.Success?)
              && (r.Success? ==> r.value.0 == corrected.value.0 && r.value.1 == ToInt32(corrected.value.1))
  {
    var name := FullName(c, d);
    if |name| == 0 then
      Success((t, -1))
    else if fault == BindFailure then
      Failure(SOME_ERROR)
    else
      var hash :- ComputeKeyLocatorHash(c, d);
      match fault
      case ConstraintViolation => Failure(INSERT_FAILED)
      case StepError => Success((t.(mSize := t.mSize + 1), ToInt32(t.lastInsertRowid)))
      case NoFault =>
        var id := t.sequence + 1;
        Success((Table(t.rows + [RowOf(c, d, hash, id)], t.mSize + 1, id, id), ToInt32(id)))
  }

  /** A failed step other than a constraint violation is reported as a
      successful insert: no row is added, yet `m_size` grows and the returned
      id is that of an older row (here row 1, a different packet). */
  lemma StepErrorReportedAsInsert(c: Crypto, d0: Data, d: Data)
    requires d0.keyLocator.Some? && d.keyLocator.Some?
    ensures var t := Insert(c, Empty(), d0, NoFault).value.0;
            var (t', id) := InsertAsWritten(c, t, d, StepError).value;
            id == 1 && t'.rows == t.rows && Size(t') == 1 && t'.mSize == 2
            && ReadData(t', id) == Some(d0)
    ensures var t := Insert(c, Empty(), d0, NoFault).value.0;
            Insert(c, t, d, StepError) == Failure(INSERT_FAILED)
  {
    var t := Insert(c, Empty(), d0, NoFault).value.0;
    assert t.rows[0].id == 1;
  }

  /** Once the AUTOINCREMENT counter reaches 2^32 - 2, the next id,
      0xFFFFFFFF, comes back as -1 from the `int` truncation, the value the
      façade reads as "insert failed", although the row was written. */
  lemma RowIdTruncatedToMinusOne(c: Crypto, d: Data)
    requires d.keyLocator.Some?
    ensures var t := Table([], 0, 0xFFFF_FFFE, 0);
            var (t', id) := InsertAsWritten(c, t, d, NoFault).value;
            id == -1 && |t'.rows| == 1 && t'.rows[0].id == 0xFFFF_FFFF
    ensures var t := Table([], 0, 0xFFFF_FFFE, 0);
            Insert(c, t, d, NoFault).value.1 == 0xFFFF_FFFF
  {
  }
}

=== FILE: storage.dfy ===
/** The storage layer's key-locator fingerprint policy. */
module Storage {
  import opened Names
  import opened Wrappers
  import opened Packets

  const NO_KEY_LOCATOR := "Data has no KeyLocator!"

  /** `Storage::computeKeyLocatorHash`: the digest of the key locator's wire
      encoding, or the "no key locator" error. The result type carries the
      digest size, so no call ever yields a null or short buffer. */
  function ComputeKeyLocatorHash(c: Crypto, d: Data): (r: Result<Digest>)
    ensures r.Success? <==> d.keyLocator.Some?
    ensures r.Success? ==> (r.value == KeyLocatorDigest(c, d.keyLocator.value) && |r.value| == DIGEST_SIZE)
    ensures r.Failure? ==> r.error == NO_KEY_LOCATOR
  {
    match d.keyLocator
    case Some(k) => Success(KeyLocatorDigest(c, k))
    case None => Failure(NO_KEY_LOCATOR)
  }

  /** The fingerprint depends on the key locator only: name, content and final
      block of the packet play no part. */
  lemma HashDependsOnlyOnKeyLocator(c: Crypto, d1: Data, d2: Data)
    requires d1.keyLocator == d2.keyLocator
    ensures ComputeKeyLocatorHash(c, d1) == ComputeKeyLocatorHash(c, d2)
  {
  }
}

=== FILE: sync_handle.dfy ===
/** `SyncHandle`: the sync start, check and stop commands and the fetching of
    the data a ChronoSync tree update reports missing. The process table maps
    a sync name to its response and a running flag; the interest counters,
    the timeout, the start time and the fetched-data count are handle-wide,
    shared by every entry. The face, the validator and the scheduler become
    the `Effect`s a transition returns; the clock is the `now` parameter
    (milliseconds). */
module SyncHandle {
  import opened Names
  import opened Wrappers
  import opened Packets
  import opened Command
  import opened SqliteStorage
  import RepoStorage

  const PROCESS_DELETE_TIME: nat := 10000
  const DEFAULT_INTEREST_LIFETIME: nat := 4000
  const INSERT_INTO_REPO_FAILED := "Insert into Repo Failed"

  datatype Session = Session(response: Response, running: bool)

  datatype State = State(
    processes: map<Name, Session>,
    interestNum: nat,
    maxInterestNum: nat,
    interestLifetime: nat,
    syncTimeout: nat,
    startTime: int,
    size: nat,
    store: Table)

  /** What a transition asks of the outside world. A `Fetch` expresses an
      interest whose data, nack and timeout callbacks are bound to
      `boundName`; `ScheduleDelete` runs `deleteProcess` after
      `PROCESS_DELETE_TIME`; `Notify` is a storage signal. */
  datatype Effect =
    | Reply(response: Response)
    | Fetch(interest: Interest, mustBeFresh: bool, boundName: Name)
    | ScheduleDelete(name: Name)
    | Notify(notice: RepoStorage.Notice)

  /** The handle as constructed. */
  function Init(store: Table, now: int): (s: State)
    ensures s.processes == map[] && s.interestNum == 0 && s.maxInterestNum == 0 && s.syncTimeout == 0
    ensures s.interestLifetime == DEFAULT_INTEREST_LIFETIME && s.startTime == now && s.size == 0
  {
    State(map[], 0, 0, DEFAULT_INTEREST_LIFETIME, 0, now, 0, store)
  }

  // ------------------------------------------------------- process table

  /** `m_processes[name]` read: a missing entry reads as a default response,
      not running. */
  function Entry(s: State, name: Name): Session {
    if name in s.processes then s.processes[name] else Session(NoResponse(), false)
  }

  /** The insertion `m_processes[name]` performs when the entry is missing. */
  function Touch(s: State, name: Name): (r: State)
    ensures name in r.processes && r.processes[name] == Entry(s, name)
    ensures r.processes.Keys == s.processes.Keys + {name}
    ensures forall n :: n in s.processes ==> r.processes[n] == s.processes[n]
    ensures r.store == s.store && r.size == s.size && r.interestNum == s.interestNum
    ensures r == s.(processes := r.processes)
  {
    s.(processes := s.processes[name := Entry(s, name)])
  }

  /** On a present entry the insertion is no change. */
  lemma TouchPresent(s: State, name: Name)
    requires name in s.processes
    ensures Touch(s, name) == s
  {
    assert s.processes[name := s.processes[name]] == s.processes;
  }

  /** `deleteProcess`: drop the entry; a missing one is no error. */
  function DeleteProcess(s: State, name: Name): (r: State)
    ensures name !in r.processes
    ensures r.processes.Keys == s.processes.Keys - {name}
    ensures forall n :: n in r.processes ==> r.processes[n] == s.processes[n]
    ensures name !in s.processes ==> r == s
  {
    s.(processes := s.processes - {name})
  }

  /** `syncStop`: mark the entry stopped (creating it when missing), lift
      every limit, restore the default lifetime, restart the clock and zero
      the counters. */
  function SyncStop(s: State, name: Name, now: int): (r: State)
    ensures name in r.processes && !r.processes[name].running
    ensures r.processes[name].response == Entry(s, name).response
    ensures r.processes.Keys == s.processes.Keys + {name}
    ensures forall n :: n in s.processes && n != name ==> r.processes[n] == s.processes[n]
    ensures r.maxInterestNum == 0 && r.interestNum == 0 && r.syncTimeout == 0 && r.size == 0
    ensures r.interestLifetime == DEFAULT_INTEREST_LIFETIME && r.startTime == now
    ensures r.store == s.store
  {
    var e := Entry(s, name);
    s.(processes := s.processes[name := e.(running := false)],
       maxInterestNum := 0, interestNum := 0, startTime := now, syncTimeout := 0,
       interestLifetime := DEFAULT_INTEREST_LIFETIME, size := 0)
  }

  /** The two limits `onRunning` checks: the sync timeout (0 = none) since
      the last fetch burst, and the interest budget (0 = none). */
  predicate Exhausted(s: State, now: int) {
    || (s.syncTimeout != 0 && now - s.startTime > s.syncTimeout)
    || (s.interestNum >= s.maxInterestNum && s.maxInterestNum != 0)
  }

  /** `onRunning`: past a limit, schedule the entry's deletion, stop the sync
      and answer false; otherwise answer true and change nothing. */
  function OnRunning(s: State, name: Name, now: int): (r: (bool, State, seq<Effect>))
    ensures r.0 <==> !Exhausted(s, now)
    ensures r.0 ==> r.1 == s && r.2 == []
    ensures !r.0 ==> r.1 == SyncStop(s, name, now) && r.2 == [ScheduleDelete(name)]
  {
    if Exhausted(s, now) then (false, SyncStop(s, name, now), [ScheduleDelete(name)])
    else (true, s, [])
  }

  /** After a stop no limit is left: until the next start command `onRunning`
      holds at every later time, whatever the counters reach. */
  lemma StoppedHandleHasNoLimit(s: State, name: Name, now: int, later: int, fetched: nat)
    ensures var t := SyncStop(s, name, now);
            OnRunning(t.(interestNum := fetched), name, later).0
  {
  }

  // ------------------------------------------------------------ commands

  /** `negativeReply`: a fresh response with only the status code set. */
  function NegativeReply(code: nat): (r: Effect)
    ensures r.Reply? && r.response.code == Some(code) && r.response.text == ""
    ensures r.response.(code := None) == NoResponse()
  {
    Reply(StatusReply(code, ""))
  }

  /** `processSyncCommand` (sync start): take the timeout and the budget
      from the parameter (absent = unbounded), the lifetime only when given;
      reply 100 and store the entry as (300, running). The counters, the
      start time and the fetched count are left as they were. */
  function ProcessSyncCommand(s: State, p: Parameter): (r: (State, seq<Effect>))
    ensures r.1 == [NegativeReply(100)]
    ensures NameOf(p) in r.0.processes && r.0.processes[NameOf(p)] == Session(StatusReply(300, ""), true)
    ensures forall n :: n in s.processes && n != NameOf(p) ==> n in r.0.processes && r.0.processes[n] == s.processes[n]
    ensures r.0.processes.Keys == s.processes.Keys + {NameOf(p)}
    ensures r.0.syncTimeout == (if p.syncTimeout.Some? then p.syncTimeout.value else 0)
    ensures r.0.maxInterestNum == (if p.maxInterestNum.Some? then p.maxInterestNum.value else 0)
    ensures p.interestLifetime.Some? ==> r.0.interestLifetime == p.interestLifetime.value
    ensures p.interestLifetime.None? ==> r.0.interestLifetime == s.interestLifetime
    ensures r.0.interestNum == s.interestNum && r.0.startTime == s.startTime && r.0.size == s.size
    ensures r.0.store == s.store
  {
    var s1 := s.(syncTimeout := p.syncTimeout.GetOr(0),
                 maxInterestNum := p.maxInterestNum.GetOr(0),
                 interestLifetime := p.interestLifetime.GetOr(s.interestLifetime));
    (s1.(processes := s1.processes[NameOf(p) := Session(StatusReply(300, ""), true)]), [NegativeReply(100)])
  }

  /** `onValidated` of a start command: a parameter that does not decode
      (`None`) is answered 403. */
  function OnStartValidated(s: State, p: Option<Parameter>): (r: (State, seq<Effect>))
    ensures p.None? ==> r == (s, [NegativeReply(403)])
    ensures p.Some? ==> r == ProcessSyncCommand(s, p.value)
  {
    match p
    case None => (s, [NegativeReply(403)])
    case Some(param) => ProcessSyncCommand(s, param)
  }

  /** `onValidationFailed` of every command: reply 401, change nothing. */
  function OnCommandValidationFailed(s: State): (r: (State, seq<Effect>))
    ensures r.0 == s && r.1 == [NegativeReply(401)]
  {
    (s, [NegativeReply(401)])
  }

  /** `onStopValidated`: stop the named sync and reply 101, whether or not it
      was known; 403 when the parameter does not decode. */
  function OnStopValidated(s: State, p: Option<Parameter>, now: int): (r: (State, seq<Effect>))
    ensures p.None? ==> r == (s, [NegativeReply(403)])
    ensures p.Some? ==> r.1 == [NegativeReply(101)] && r.0 == SyncStop(s, NameOf(p.value), now)
  {
    match p
    case None => (s, [NegativeReply(403)])
    case Some(param) => (SyncStop(s, NameOf(param), now), [NegativeReply(101)])
  }

  /** `onCheckValidated`: 403 without a decodable parameter or a name, 404
      for an unknown name; otherwise the stored response, its status
      overwritten with 101 (in the table too) when the sync is not running. */
  function OnCheckValidated(s: State, p: Option<Parameter>): (r: (State, seq<Effect>))
    ensures p.None? || p.value.name.None? ==> r == (s, [NegativeReply(403)])
    ensures p.Some? && p.value.name.Some? && p.value.name.value !in s.processes ==> r == (s, [NegativeReply(404)])
    ensures p.Some? && p.value.name.Some? && p.value.name.value in s.processes ==>
              var n := p.value.name.value;
              var e := s.processes[n];
              && r.0.processes.Keys == s.processes.Keys
              && r.0.processes[n].running == e.running
              && |r.1| == 1 && r.1[0].Reply? && r.1[0].response == r.0.processes[n].response
              && (e.running ==> r.0 == s && r.1[0].response == e.response)
              && (!e.running ==> r.1[0].response == e.response.(code := Some(101)))
              && (!e.running ==> r.0 == s.(processes := s.processes[n := e.(response := e.response.(code := Some(101)))]))
              && (forall m :: m in s.processes && m != n ==> r.0.processes[m] == s.processes[m])
  {
    if p.None? || p.value.name.None? then (s, [NegativeReply(403)])
    else
      var n := p.value.name.value;
      if n !in s.processes then (s, [NegativeReply(404)])
      else
        var e := s.processes[n];
        if e.running then (s, [Reply(e.response)])
        else
          var response := e.response.(code := Some(101));
          (s.(processes := s.processes[n := e.(response := response)]), [Reply(response)])
  }

  /** A start command followed by a check of the same name answers 300. */
  lemma StartThenCheck(s: State, p: Parameter, q: Parameter)
    requires p.name.Some? && q.name == p.name
    ensures var started := ProcessSyncCommand(s, p).0;
            OnCheckValidated(started, Some(q)).1 == [Reply(StatusReply(300, ""))]
  {
  }

  /** After a stop, a check answers 101 and leaves 101 stored, so every later
      check answers 101 as well. */
  lemma StopThenCheck(s: State, p: Parameter, q: Parameter, now: int)
    requires p.name.Some? && q.name == p.name
    ensures var stopped := SyncStop(s, NameOf(p), now);
            var (checked, replies) := OnCheckValidated(stopped, Some(q));
            && replies[0].response.code == Some(101)
            && checked.processes[NameOf(p)].response.code == Some(101)
            && OnCheckValidated(checked, Some(q)).1 == replies
  {
  }

  // ---------------------------------------------------- fetch callbacks

  /** `onDataValidated`: for a name whose entry is missing or stopped, only
      the default entry appears. Otherwise store the packet (an exception
      when that fails), count it, and, while no limit is reached, fetch the
      same interest name again and record the count as the entry's
      `insertNum`. */
  function OnDataValidated(c: Crypto, s: State, interestName: Name, d: Data, name: Name, fault: Fault, now: int): (r: Result<(State, seq<Effect>)>)
    requires Valid(s.store)
    ensures !Entry(s, name).running ==> r == Success((Touch(s, name), []))
    ensures Entry(s, name).running ==> r == StoreFetched(c, s, interestName, d, name, fault, now)
  {
    if !Entry(s, name).running then Success((Touch(s, name), []))
    else
      TouchPresent(s, name);
      StoreFetched(c, s, interestName, d, name, fault, now)
  }

  /** The running case of `onDataValidated`: the insertion, then the
      counting and the refetch. */
  function StoreFetched(c: Crypto, s: State, interestName: Name, d: Data, name: Name, fault: Fault, now: int): (r: Result<(State, seq<Effect>)>)
    requires Valid(s.store) && Entry(s, name).running
    ensures r.Success? <==> Has(s.store, FullName(c, d)) || (fault == NoFault && d.keyLocator.Some?)
    ensures r.Success? ==>
              var inserted := RepoStorage.InsertData(c, s.store, d, fault).value;
              && Valid(inserted.1) && Has(inserted.1, FullName(c, d))
              && r.value == AfterInsert(s, inserted.1, inserted.2, interestName, name, now)
  {
    var inserted :- RepoStorage.InsertData(c, s.store, d, fault);
    var (ok, store, notices) := inserted;
    if !ok then Failure(INSERT_INTO_REPO_FAILED)
    else Success(AfterInsert(s, store, notices, interestName, name, now))
  }

  /** After a successful insertion: count the packet, then either stop (a
      limit is reached) or fetch the same interest name again and record the
      count as the entry's `insertNum`. The storage signals come first. */
  function AfterInsert(s: State, store: Table, notices: seq<RepoStorage.Notice>, interestName: Name, name: Name, now: int): (r: (State, seq<Effect>))
    requires Entry(s, name).running
    ensures |r.1| == |notices| + 1
    ensures forall i :: 0 <= i < |notices| ==> r.1[i] == Notify(notices[i])
    ensures r.0.store == store
    ensures Exhausted(s.(size := s.size + 1), now) ==>
              r.0 == SyncStop(s.(store := store), name, now) && r.1[|notices|] == ScheduleDelete(name)
    ensures !Exhausted(s.(size := s.size + 1), now) ==>
              && r.0.size == s.size + 1 && r.0.interestNum == s.interestNum + 1
              && name in r.0.processes && r.0.processes[name].running
              && r.0.processes[name].response.insertNum == Some(s.size + 1)
              && r.1[|notices|] == Fetch(Interest(interestName, s.interestLifetime), false, name)
    ensures !Exhausted(s.(size := s.size + 1), now) ==>
              var e := Entry(s, name);
              r.0 == s.(store := store, size := s.size + 1, interestNum := s.interestNum + 1,
                        processes := s.processes[name := e.(response := e.response.(insertNum := Some(s.size + 1)))])
  {
    var s1 := s.(store := store, size := s.size + 1);
    var signals := seq(|notices|, i requires 0 <= i < |notices| => Notify(notices[i]));
    var (running, s2, stopped) := OnRunning(s1, name, now);
    if !running then (s2, signals + stopped)
    else
      var e := s2.processes[name];
      var s3 := s2.(interestNum := s2.interestNum + 1,
                    processes := s2.processes[name := e.(response := e.response.(insertNum := Some(s2.size)))]);
      (s3, signals + [Fetch(Interest(interestName, s2.interestLifetime), false, name)])
  }

  /** `onDataValidationFailed` and `onTimeout`: for a running entry, and
      while no limit is reached, express the same interest name again. */
  function Refetch(s: State, interestName: Name, name: Name, now: int): (r: (State, seq<Effect>))
    ensures !Entry(s, name).running ==> r == (Touch(s, name), [])
    ensures Entry(s, name).running && Exhausted(s, now) ==>
              r == (SyncStop(s, name, now), [ScheduleDelete(name)])
    ensures Entry(s, name).running && !Exhausted(s, now) ==>
              && r.0 == s.(interestNum := s.interestNum + 1)
              && r.1 == [Fetch(Interest(interestName, s.interestLifetime), false, name)]
    ensures r.0.store == s.store
  {
    if !Entry(s, name).running then (Touch(s, name), [])
    else
      var (running, s1, stopped) := OnRunning(s, name, now);
      if !running then (s1, stopped)
      else (s1.(interestNum := s1.interestNum + 1), [Fetch(Interest(interestName, s1.interestLifetime), false, name)])
  }

  function OnDataValidationFailed(s: State, interestName: Name, name: Name, now: int): (r: (State, seq<Effect>))
    ensures r == Refetch(s, interestName, name, now)
  {
    Refetch(s, interestName, name, now)
  }

  function OnTimeout(s: State, interestName: Name, name: Name, now: int): (r: (State, seq<Effect>))
    ensures r == Refetch(s, interestName, name, now)
  {
    Refetch(s, interestName, name, now)
  }

  // ------------------------------------------------------ tree updates

  /** `chronosync::MissingDataInfo`: the sequence numbers `low..high` of a
      session are missing. */
  datatype MissingDataInfo = MissingDataInfo(session: Name, low: nat, high: nat)

  /** `session` followed by `appendNumber(seq)`. */
  function SeqName(session: Name, seqNo: nat): Name {
    session + [NumberComponent(seqNo)]
  }

  /** The fetch of one missing packet. `root` is the name its callbacks are
      bound to: `None` binds them to the interest name itself, as the code
      does. */
  function MissingFetch(session: Name, seqNo: nat, lifetime: nat, root: Option<Name>): Effect {
    var n := SeqName(session, seqNo);
    Fetch(Interest(n, lifetime), true, root.GetOr(n))
  }

  /** The fetches for the sequence numbers `low..hi - 1`, in order. */
  function RangeFetches(session: Name, low: nat, hi: nat, lifetime: nat, root: Option<Name>): (r: seq<Effect>)
    ensures |r| == if hi <= low then 0 else hi - low
    decreases hi
  {
    if hi <= low then [] else RangeFetches(session, low, hi - 1, lifetime, root) + [MissingFetch(session, hi - 1, lifetime, root)]
  }

  /** One fetch per missing sequence number, update by update. */
  function MissingFetches(updates: seq<MissingDataInfo>, lifetime: nat, root: Option<Name>): (r: seq<Effect>)
    decreases |updates|
  {
    if |updates| == 0 then []
    else
      var u := updates[|updates| - 1];
      MissingFetches(updates[..|updates| - 1], lifetime, root) + RangeFetches(u.session, u.low, u.high + 1, lifetime, root)
  }

  /** Number of sequence numbers an update reports missing. */
  function Width(u: MissingDataInfo): nat {
    if u.high < u.low then 0 else u.high - u.low + 1
  }

  function TotalWidth(updates: seq<MissingDataInfo>): nat
    decreases |updates|
  {
    if |updates| == 0 then 0 else TotalWidth(updates[..|updates| - 1]) + Width(updates[|updates| - 1])
  }

  /** Exactly one fetch per missing sequence number. */
  lemma {:induction false} OneFetchPerMissingNumber(updates: seq<MissingDataInfo>, lifetime: nat, root: Option<Name>)
    ensures |MissingFetches(updates, lifetime, root)| == TotalWidth(updates)
    decreases |updates|
  {
    if |updates| > 0 {
      OneFetchPerMissingNumber(updates[..|updates| - 1], lifetime, root);
    }
  }

  /** The `k`-th fetch of a range asks for sequence number `low + k`, with
      the must-be-fresh flag. */
  lemma {:induction false} RangeFetchAt(session: Name, low: nat, hi: nat, lifetime: nat, root: Option<Name>, k: nat)
    requires k < hi - low
    ensures RangeFetches(session, low, hi, lifetime, root)[k] == MissingFetch(session, low + k, lifetime, root)
    decreases hi
  {
    var prev := RangeFetches(session, low, hi - 1, lifetime, root);
    var last := MissingFetch(session, hi - 1, lifetime, root);
    assert RangeFetches(session, low, hi, lifetime, root) == prev + [last];
    if k < |prev| {
      RangeFetchAt(session, low, hi - 1, lifetime, root, k);
      assert (prev + [last])[k] == prev[k];
    } else {
      assert low + k == hi - 1;
    }
  }

  /** As written, every fetch is bound to its own interest name. */
  lemma {:induction false} FetchesBoundToInterestName(updates: seq<MissingDataInfo>, lifetime: nat)
    ensures forall f :: f in MissingFetches(updates, lifetime, None) ==>
              f.Fetch? && f.boundName == f.interest.name && f.mustBeFresh
    decreases |updates|
  {
    if |updates| > 0 {
      FetchesBoundToInterestName(updates[..|updates| - 1], lifetime);
      var u := updates[|updates| - 1];
      RangeBoundToInterestName(u.session, u.low, u.high + 1, lifetime);
    }
  }

  lemma {:induction false} RangeBoundToInterestName(session: Name, low: nat, hi: nat, lifetime: nat)
    ensures forall f :: f in RangeFetches(session, low, hi, lifetime, None) ==>
              f.Fetch? && f.boundName == f.interest.name && f.mustBeFresh
    decreases hi
  {
    if hi > low {
      RangeBoundToInterestName(session, low, hi - 1, lifetime);
    }
  }

  /** `processSyncUpdate`: nothing for an empty list; otherwise one fetch per
      missing sequence number, each counted in `interestNum` and restarting
      the sync clock. */
  method ProcessSyncUpdate(s: State, updates: seq<MissingDataInfo>, now: int) returns (t: State, effects: seq<Effect>)
    ensures effects == MissingFetches(updates, s.interestLifetime, None)
    ensures t.interestNum == s.interestNum + |effects|
    ensures t.startTime == if |effects| == 0 then s.startTime else now
    ensures t.(interestNum := s.interestNum, startTime := s.startTime) == s
  {
    effects := [];
    var i := 0;
    while i < |updates|
      invariant 0 <= i <= |updates|
      invariant effects == MissingFetches(updates[..i], s.interestLifetime, None)
    {
      var fetches := FetchRange(updates[i], s.interestLifetime);
      assert updates[..i + 1][..i] == updates[..i];
      effects := effects + fetches;
      i := i + 1;
    }
    assert updates[..|updates|] == updates;
    t := s.(interestNum := s.interestNum + |effects|,
            startTime := if |effects| == 0 then s.startTime else now);
  }

  /** The inner loop of `processSyncUpdate`: one fetch per sequence number
      from `low` to `high`, in increasing order. */
  method FetchRange(u: MissingDataInfo, lifetime: nat) returns (effects: seq<Effect>)
    ensures effects == RangeFetches(u.session, u.low, u.high + 1, lifetime, None)
  {
    effects := [];
    if u.high < u.low {
      return;
    }
    var sq := u.low;
    while sq <= u.high
      invariant u.low <= sq <= u.high + 1
      invariant effects == RangeFetches(u.session, u.low, sq, lifetime, None)
    {
      RangeFetchesStep(u.session, u.low, sq, lifetime);
      effects := effects + [MissingFetch(u.session, sq, lifetime, None)];
      sq := sq + 1;
    }
  }

  lemma RangeFetchesStep(session: Name, low: nat, sq: nat, lifetime: nat)
    requires low <= sq
    ensures RangeFetches(session, low, sq + 1, lifetime, None)
         == RangeFetches(session, low, sq, lifetime, None) + [MissingFetch(session, sq, lifetime, None)]
  {
  }

  /** The same fan-out with the callbacks bound to the sync name the start
      command registered, so that arriving data finds the running entry. */
  function ProcessSyncUpdateToRoot(s: State, root: Name, updates: seq<MissingDataInfo>, now: int): (r: (State, seq<Effect>))
    ensures r.1 == MissingFetches(updates, s.interestLifetime, Some(root))
    ensures forall f :: f in r.1 ==> f.Fetch? && f.boundName == root
    ensures r.0.interestNum == s.interestNum + |r.1|
    ensures r.0.startTime == if |r.1| == 0 then s.startTime else now
    ensures r.0.(interestNum := s.interestNum, startTime := s.startTime) == s
  {
    RootFetchesBoundToRoot(updates, s.interestLifetime, root);
    var effects := MissingFetches(updates, s.interestLifetime, Some(root));
    (s.(interestNum := s.interestNum + |effects|, startTime := if |effects| == 0 then s.startTime else now), effects)
  }

  lemma {:induction false} RootFetchesBoundToRoot(updates: seq<MissingDataInfo>, lifetime: nat, root: Name)
    ensures forall f :: f in MissingFetches(updates, lifetime, Some(root)) ==> f.Fetch? && f.boundName == root
    decreases |updates|
  {
    if |updates| > 0 {
      RootFetchesBoundToRoot(updates[..|updates| - 1], lifetime, root);
      var u := updates[|updates| - 1];
      RootRangeBoundToRoot(u.session, u.low, u.high + 1, lifetime, root);
    }
  }

  lemma {:induction false} RootRangeBoundToRoot(session: Name, low: nat, hi: nat, lifetime: nat, root: Name)
    ensures forall f :: f in RangeFetches(session, low, hi, lifetime, Some(root)) ==> f.Fetch? && f.boundName == root
    decreases hi
  {
    if hi > low {
      RootRangeBoundToRoot(session, low, hi - 1, lifetime, root);
    }
  }

  /** The code as written loses what it fetches: the sync `/sync` is started
      and running, the tree reports `/producer` sequence number 1 missing, and
      the validated packet arrives on the callback bound to `/producer/1`,
      whose entry does not exist; nothing is stored and a stopped entry for
      `/producer/1` appears. Bound to the root, the packet is stored. */
  lemma SyncedDataDropped(c: Crypto, store: Table, d: Data, now: int)
    requires Valid(store) && d.keyLocator.Some?
    ensures var root := [Component(GENERIC_TYPE, [0x73, 0x79, 0x6E, 0x63])];
            var session := [Component(GENERIC_TYPE, [0x70])];
            var started := ProcessSyncCommand(Init(store, now), Parameter(Some(root), None, None, None, None, None, None)).0;
            var f := MissingFetch(session, 1, started.interestLifetime, None);
            var r := OnDataValidated(c, started, f.interest.name, d, f.boundName, NoFault, now);
            && r == Success((Touch(started, f.boundName), []))
            && r.value.0.store == store
            && !r.value.0.processes[f.boundName].running
    ensures var root := [Component(GENERIC_TYPE, [0x73, 0x79, 0x6E, 0x63])];
            var session := [Component(GENERIC_TYPE, [0x70])];
            var started := ProcessSyncCommand(Init(store, now), Parameter(Some(root), None, None, None, None, None, None)).0;
            var f := MissingFetch(session, 1, started.interestLifetime, Some(root));
            var r := OnDataValidated(c, started, f.interest.name, d, f.boundName, NoFault, now);
            r.Success? && Has(r.value.0.store, FullName(c, d))
  {
    var root := [Component(GENERIC_TYPE, [0x73, 0x79, 0x6E, 0x63])];
    var session := [Component(GENERIC_TYPE, [0x70])];
    var bound := SeqName(session, 1);
    assert bound[0] != root[0];
    assert bound != root;
  }

  /** Fetch callbacks for a name whose entry is missing or stopped change
      nothing but the default entry: no storage, no counter, no fetch. */
  lemma StoppedEntryIgnoresCallbacks(c: Crypto, s: State, interestName: Name, d: Data, name: Name, fault: Fault, now: int)
    requires Valid(s.store) && !Entry(s, name).running
    ensures OnDataValidated(c, s, interestName, d, name, fault, now) == Success((Touch(s, name), []))
    ensures OnTimeout(s, interestName, name, now) == (Touch(s, name), [])
    ensures OnDataValidationFailed(s, interestName, name, now) == (Touch(s, name), [])
    ensures Touch(s, name).store == s.store && Touch(s, name).interestNum == s.interestNum
  {
  }
}

=== FILE: wrappers.dfy ===
/** Option and Result values used for the absent values (null pointers) and the
    exceptions of the repository. */
module Wrappers {

  datatype Option<+T> = None | Some(value: T) {

    /** The wrapped value, or `default` when there is none. */
    function GetOr(default: T): T {
      match this
      case Some(v) => v
      case None => default
    }
  }

  /** `Failure` stands for a thrown exception, carrying its message. */
  datatype Result<+T> = Success(value: T) | Failure(error: string) {

    predicate IsFailure() {
      Failure?
    }

    function PropagateFailure<U>(): Result<U>
      requires Failure?
    {
      Failure(error)
    }

    function Extract(): T
      requires Success?
    {
      value
    }
  }
}

=== FILE: write_handle.dfy ===
/** `WriteHandle`: the insert and insert-check commands. A single insert
    fetches one packet; a segmented insert fetches `startBlockId` up to
    `endBlockId` (or up to the final block the data announces) through a
    credit window of `DEFAULT_CREDIT` outstanding interests, retrying each
    segment at most `RETRY_TIMEOUT` times. Processes are keyed by a random
    process id, passed in as a parameter like the clock `now`
    (milliseconds). The face and the scheduler become the `Effect`s a
    transition returns. */
module WriteHandle {
  import opened Names
  import opened Wrappers
  import opened Packets
  import opened Command
  import opened SqliteStorage
  import RepoStorage

  const RETRY_TIMEOUT: nat := 3
  const DEFAULT_CREDIT: nat := 12
  const NOEND_TIMEOUT: nat := 10000
  const PROCESS_DELETE_TIME: nat := 10000
  const DEFAULT_INTEREST_LIFETIME: nat := 4000
  const MALFORMED_COMMAND := "Malformed Command"
  const NO_SUCH_PROCESS := "No such this process is in progress"

  /** `ProcessInfo`: the response the check command returns, the credit
      (interests that may still be sent), the next segment to queue, the
      queue of segments to send, the retry count of every outstanding
      segment and the deadline of a process without an end block. */
  datatype Process = Process(
    response: Response,
    credit: int,
    nextSegment: nat,
    queue: seq<nat>,
    retryCounts: map<nat, nat>,
    noEndTime: int)

  datatype State = State(processes: map<nat, Process>, interestLifetime: nat, store: Table)

  /** A segment interest: the name `prefix` with segment `segment` appended. */
  datatype SegmentInterest = SegmentInterest(prefix: Name, segment: nat)

  /** What a transition asks of the outside world. `FetchSingle` binds the
      data callback to `onDataValidated` and the timeout and nack callbacks
      to `onTimeout`; `FetchSegment` binds them to `onSegmentDataValidated`
      and `onSegmentTimeoutControl`; `ScheduleDelete` runs `deleteProcess`
      after `PROCESS_DELETE_TIME`; `Notify` is a storage signal. */
  datatype Effect =
    | Reply(response: Response)
    | FetchSingle(interest: Interest, processId: nat)
    | FetchSegment(segmentInterest: SegmentInterest, lifetime: nat, processId: nat)
    | ScheduleDelete(processId: nat)
    | Notify(notice: RepoStorage.Notice)

  /** The handle as constructed. */
  function Init(store: Table): (s: State)
    ensures s.processes == map[] && s.interestLifetime == DEFAULT_INTEREST_LIFETIME && s.store == store
  {
    State(map[], DEFAULT_INTEREST_LIFETIME, store)
  }

  // ------------------------------------------------------- process table

  function DefaultProcess(): Process {
    Process(NoResponse(), 0, 0, [], map[], 0)
  }

  /** `m_processes[processId]` read: a missing process reads as a default
      one. */
  function ProcessOf(s: State, pid: nat): Process {
    if pid in s.processes then s.processes[pid] else DefaultProcess()
  }

  function Put(s: State, pid: nat, p: Process): (r: State)
    ensures pid in r.processes && r.processes[pid] == p
    ensures r.processes.Keys == s.processes.Keys + {pid}
    ensures forall q :: q in s.processes && q != pid ==> r.processes[q] == s.processes[q]
    ensures r.store == s.store && r.interestLifetime == s.interestLifetime
  {
    s.(processes := s.processes[pid := p])
  }

  /** `getInsertNum()` of a response; one that never had the field set
      reads 0. */
  function InsertNumOf(r: Response): nat {
    r.insertNum.GetOr(0)
  }

  /** `getStartBlockId()` of a parameter; 0 when absent. */
  function StartOf(p: Parameter): nat {
    p.startBlockId.GetOr(0)
  }

  /** `deleteProcess`: drop the process; a missing one is no error. */
  function DeleteProcess(s: State, pid: nat): (r: State)
    ensures pid !in r.processes
    ensures r.processes.Keys == s.processes.Keys - {pid}
    ensures forall q :: q in r.processes ==> r.processes[q] == s.processes[q]
    ensures pid !in s.processes ==> r == s
  {
    s.(processes := s.processes - {pid})
  }

  /** Every process's credit is non-negative. */
  ghost predicate CreditsNonNegative(s: State) {
    forall pid :: pid in s.processes ==> s.processes[pid].credit >= 0
  }

  /** The storage signals of an insertion, as effects. */
  function Signals(notices: seq<RepoStorage.Notice>): (r: seq<Effect>)
    ensures |r| == |notices|
    ensures forall i :: 0 <= i < |notices| ==> r[i] == Notify(notices[i])
  {
    seq(|notices|, i requires 0 <= i < |notices| => Notify(notices[i]))
  }

  // ----------------------------------------------------- insert command

  /** `handleInsertCommand`: a start or an end block id selects the
      segmented insert, otherwise the single insert; a lifetime in the
      command applies to the interests sent after this one. */
  function HandleInsertCommand(s: State, p: Parameter, pid: nat, now: int): (r: (State, seq<Effect>))
    ensures p.startBlockId.Some? || p.endBlockId.Some? ==>
              r.1 == ProcessSegmentedInsertCommand(s, p, pid, now).1
    ensures p.startBlockId.None? && p.endBlockId.None? ==>
              r.1 == ProcessSingleInsertCommand(s, p, pid).1
    ensures p.startBlockId.Some? || p.endBlockId.Some? ==>
              r.0.processes == ProcessSegmentedInsertCommand(s, p, pid, now).0.processes
    ensures p.startBlockId.None? && p.endBlockId.None? ==>
              r.0.processes == ProcessSingleInsertCommand(s, p, pid).0.processes
    ensures r.0.interestLifetime == p.interestLifetime.GetOr(s.interestLifetime)
    ensures r.0.store == s.store
    ensures CreditsNonNegative(s) ==> CreditsNonNegative(r.0)
  {
    var (s1, effects) :=
      if p.startBlockId.Some? || p.endBlockId.Some? then ProcessSegmentedInsertCommand(s, p, pid, now)
      else ProcessSingleInsertCommand(s, p, pid);
    (if p.interestLifetime.Some? then s1.(interestLifetime := p.interestLifetime.value) else s1, effects)
  }

  /** `processSingleInsertCommand`: reply 100 with the process id and an
      insert count of 0, keep the process at 300 (in progress) and fetch the
      command's name with the current lifetime. */
  function ProcessSingleInsertCommand(s: State, p: Parameter, pid: nat): (r: (State, seq<Effect>))
    ensures |r.1| == 2 && r.1[0].Reply?
    ensures var reply := r.1[0].response;
            reply.code == Some(100) && reply.processId == Some(pid) && reply.insertNum == Some(0)
    ensures r.1[1] == FetchSingle(Interest(NameOf(p), s.interestLifetime), pid)
    ensures pid in r.0.processes && r.0.processes[pid].response == r.1[0].response.(code := Some(300))
    ensures r.0.processes.Keys == s.processes.Keys + {pid}
    ensures forall q :: q in s.processes && q != pid ==> r.0.processes[q] == s.processes[q]
    ensures r.0.store == s.store && r.0.interestLifetime == s.interestLifetime
    ensures CreditsNonNegative(s) ==> CreditsNonNegative(r.0)
  {
    var proc := ProcessOf(s, pid);
    var response := proc.response.(code := Some(100), processId := Some(pid), insertNum := Some(0));
    (Put(s, pid, proc.(response := response.(code := Some(300)))),
     [Reply(response), FetchSingle(Interest(NameOf(p), s.interestLifetime), pid)])
  }

  /** `processSegmentedInsertCommand`. With an end block, a start (0 when
      absent) past the end is refused with 403 and creates no process;
      otherwise the reply is 100 with the process id, an insert count of 0
      and both block ids, the process is kept at 300 and the window opens.
      Without an end block the reply carries the start block only. */
  function ProcessSegmentedInsertCommand(s: State, p: Parameter, pid: nat, now: int): (r: (State, seq<Effect>))
    ensures p.endBlockId.Some? && StartOf(p) > p.endBlockId.value ==>
              r.0 == s && r.1 == [Reply(StatusReply(403, MALFORMED_COMMAND))]
    ensures p.endBlockId.None? || StartOf(p) <= p.endBlockId.value ==>
              && |r.1| == 1 + InitialCredit(p) && r.1[0].Reply?
              && r.1[0].response.code == Some(100) && r.1[0].response.processId == Some(pid)
              && r.1[0].response.insertNum == Some(0) && r.1[0].response.startBlockId == Some(StartOf(p))
              && (p.endBlockId.Some? ==> r.1[0].response.endBlockId == p.endBlockId)
              && r.1[1..] == WindowFetches(NameOf(p), StartOf(p), InitialCredit(p), s.interestLifetime, pid)
              && pid in r.0.processes && r.0.processes[pid].response == r.1[0].response.(code := Some(300))
              && r.0.processes.Keys == s.processes.Keys + {pid}
              && (forall q :: q in s.processes && q != pid ==> r.0.processes[q] == s.processes[q])
    ensures p.endBlockId.None? || StartOf(p) <= p.endBlockId.value ==>
              var before := ProcessOf(s, pid);
              var after := r.0.processes[pid];
              && after.credit == 0
              && after.retryCounts == ZeroRetries(before.retryCounts, StartOf(p), InitialCredit(p))
              && after.nextSegment == StartOf(p) + InitialCredit(p)
              && after.queue == before.queue + [StartOf(p) + InitialCredit(p)]
              && after.noEndTime == if p.endBlockId.None? then now + NOEND_TIMEOUT else before.noEndTime
    ensures r.0.store == s.store && r.0.interestLifetime == s.interestLifetime
    ensures CreditsNonNegative(s) ==> CreditsNonNegative(r.0)
  {
    var start := StartOf(p);
    if p.endBlockId.Some? && start > p.endBlockId.value then
      (s, [Reply(StatusReply(403, MALFORMED_COMMAND))])
    else
      var proc := ProcessOf(s, pid);
      var response :=
        if p.endBlockId.Some? then
          proc.response.(code := Some(100), processId := Some(pid), insertNum := Some(0),
                         startBlockId := Some(start), endBlockId := p.endBlockId)
        else
          proc.response.(code := Some(100), processId := Some(pid), insertNum := Some(0),
                         startBlockId := Some(start));
      var s1 := Put(s, pid, proc.(response := response.(code := Some(300))));
      var (s2, fetches) := SegInit(s1, pid, p, now);
      (s2, [Reply(response)] + fetches)
  }

  // ------------------------------------------------------------- segInit

  /** The initial window: `DEFAULT_CREDIT`, or fewer when the range is
      shorter. The range length is computed in unsigned 64-bit arithmetic. */
  function InitialCredit(p: Parameter): (n: nat)
    ensures n <= DEFAULT_CREDIT
    ensures p.endBlockId.None? ==> n == DEFAULT_CREDIT
    ensures p.endBlockId.Some? && StartOf(p) <= p.endBlockId.value && p.endBlockId.value - StartOf(p) + 1 < U64_MODULUS ==>
              n == if p.endBlockId.value - StartOf(p) + 1 < DEFAULT_CREDIT then p.endBlockId.value - StartOf(p) + 1 else DEFAULT_CREDIT
  {
    if p.endBlockId.Some? then
      var length := U64(p.endBlockId.value - StartOf(p) + 1);
      if length < DEFAULT_CREDIT then length else DEFAULT_CREDIT
    else DEFAULT_CREDIT
  }

  /** One interest per segment `start .. start + count - 1`, in order. */
  function WindowFetches(prefix: Name, start: nat, count: nat, lifetime: nat, pid: nat): (r: seq<Effect>)
    ensures |r| == count
    ensures forall k :: 0 <= k < count ==> r[k] == FetchSegment(SegmentInterest(prefix, start + k), lifetime, pid)
  {
    seq(count, k requires 0 <= k < count => FetchSegment(SegmentInterest(prefix, start + k), lifetime, pid))
  }

  /** The segments `start .. start + count - 1`. */
  function Window(start: nat, count: nat): (w: set<nat>)
    ensures forall k :: k in w <==> start <= k < start + count
  {
    if count == 0 then {} else Window(start, count - 1) + {start + count - 1}
  }

  /** The retry counts after the window's segments are set to 0. */
  function ZeroRetries(m: map<nat, nat>, start: nat, count: nat): (r: map<nat, nat>)
    ensures r.Keys == m.Keys + Window(start, count)
    ensures forall k :: k in r ==> r[k] == if start <= k < start + count then 0 else m[k]
  {
    map k | k in m.Keys + Window(start, count) :: if start <= k < start + count then 0 else m[k]
  }

  /** `segInit`: send the initial window for the command's name, every one
      of its segments with retry count 0, leave the credit at 0 (each
      interest sent spends one), and queue the segment after the window. A
      process without an end block gets the deadline `now + NOEND_TIMEOUT`. */
  function SegInit(s: State, pid: nat, p: Parameter, now: int): (r: (State, seq<Effect>))
    ensures r.1 == WindowFetches(NameOf(p), StartOf(p), InitialCredit(p), s.interestLifetime, pid)
    ensures pid in r.0.processes
    ensures var before := ProcessOf(s, pid);
            var after := r.0.processes[pid];
            && after.response == before.response
            && after.credit == 0
            && after.retryCounts == ZeroRetries(before.retryCounts, StartOf(p), InitialCredit(p))
            && after.nextSegment == StartOf(p) + InitialCredit(p)
            && after.queue == before.queue + [StartOf(p) + InitialCredit(p)]
            && after.noEndTime == if p.endBlockId.None? then now + NOEND_TIMEOUT else before.noEndTime
    ensures r.0.processes.Keys == s.processes.Keys + {pid}
    ensures forall q :: q in s.processes && q != pid ==> r.0.processes[q] == s.processes[q]
    ensures r.0.store == s.store && r.0.interestLifetime == s.interestLifetime
  {
    var proc := ProcessOf(s, pid);
    var start := StartOf(p);
    var credit := InitialCredit(p);
    var noEndTime := if p.endBlockId.None? then now + NOEND_TIMEOUT else proc.noEndTime;
    var proc' := proc.(credit := 0, retryCounts := ZeroRetries(proc.retryCounts, start, credit),
                       nextSegment := start + credit, queue := proc.queue + [start + credit],
                       noEndTime := noEndTime);
    (Put(s, pid, proc'), WindowFetches(NameOf(p), start, credit, s.interestLifetime, pid))
  }

  /** The loop of `segInit` as written: one interest per segment, the credit
      decremented and the retry count zeroed on each. It computes exactly
      the window, the retry counts, the final credit and the next segment
      `SegInit` states. */
  method SendWindow(prefix: Name, start: nat, credit: nat, lifetime: nat, pid: nat, retries: map<nat, nat>)
    returns (effects: seq<Effect>, retryCounts: map<nat, nat>, left: int, segment: nat)
    ensures effects == WindowFetches(prefix, start, credit, lifetime, pid)
    ensures retryCounts == ZeroRetries(retries, start, credit)
    ensures left == 0 && segment == start + credit
  {
    effects, retryCounts, left, segment := [], retries, credit, start;
    ZeroRetriesEmpty(retries, start);
    while segment < start + credit
      invariant start <= segment <= start + credit
      invariant left == credit - (segment - start)
      invariant effects == WindowFetches(prefix, start, segment - start, lifetime, pid)
      invariant retryCounts == ZeroRetries(retries, start, segment - start)
    {
      ZeroRetriesStep(retries, start, segment - start);
      effects := effects + [FetchSegment(SegmentInterest(prefix, segment), lifetime, pid)];
      retryCounts := retryCounts[segment := 0];
      left := left - 1;
      segment := segment + 1;
    }
  }

  lemma ZeroRetriesEmpty(m: map<nat, nat>, start: nat)
    ensures ZeroRetries(m, start, 0) == m
  {
    assert ZeroRetries(m, start, 0).Keys == m.Keys;
  }

  lemma ZeroRetriesStep(m: map<nat, nat>, start: nat, n: nat)
    ensures ZeroRetries(m, start, n + 1) == ZeroRetries(m, start, n)[start + n := 0]
  {
    var a, b := ZeroRetries(m, start, n + 1), ZeroRetries(m, start, n)[start + n := 0];
    assert a.Keys == b.Keys;
    forall k | k in a
      ensures a[k] == b[k]
    {
    }
  }

  // ------------------------------------------------------- single insert

  /** `onDataValidated` of a single insert: store the packet only while the
      insert count is 0, then count 1 and schedule the process's deletion.
      An unknown process ignores the data. An insertion error propagates. */
  function OnDataValidated(c: Crypto, s: State, d: Data, pid: nat, fault: Fault): (r: Result<(State, seq<Effect>)>)
    requires Valid(s.store)
    ensures pid !in s.processes ==> r == Success((s, []))
    ensures pid in s.processes && InsertNumOf(s.processes[pid].response) != 0 ==>
              r == Success((s, [ScheduleDelete(pid)]))
    ensures pid in s.processes && InsertNumOf(s.processes[pid].response) == 0 ==>
              && (r.Success? <==> RepoStorage.InsertData(c, s.store, d, fault).Success?)
              && (r.Success? ==>
                    && Valid(r.value.0.store) && Has(r.value.0.store, FullName(c, d))
                    && pid in r.value.0.processes
                    && r.value.0.processes[pid].response == s.processes[pid].response.(insertNum := Some(1))
                    && |r.value.1| > 0 && r.value.1[|r.value.1| - 1] == ScheduleDelete(pid))
    ensures pid in s.processes && InsertNumOf(s.processes[pid].response) == 0 && r.Success? ==>
              var inserted := RepoStorage.InsertData(c, s.store, d, fault).value;
              var proc := s.processes[pid];
              r.value == (Put(s.(store := inserted.1), pid, proc.(response := proc.response.(insertNum := Some(1)))),
                          Signals(inserted.2) + [ScheduleDelete(pid)])
    ensures r.Success? ==> r.value.0.processes.Keys == s.processes.Keys && Valid(r.value.0.store)
    ensures r.Success? ==> r.value.0.interestLifetime == s.interestLifetime
    ensures r.Success? && CreditsNonNegative(s) ==> CreditsNonNegative(r.value.0)
  {
    if pid !in s.processes then Success((s, []))
    else
      var proc := s.processes[pid];
      if InsertNumOf(proc.response) != 0 then Success((s, [ScheduleDelete(pid)]))
      else
        var inserted :- RepoStorage.InsertData(c, s.store, d, fault);
        var proc' := proc.(response := proc.response.(insertNum := Some(1)));
        Success((Put(s.(store := inserted.1), pid, proc'), Signals(inserted.2) + [ScheduleDelete(pid)]))
  }

  /** A single insert stores at most one packet: once a packet has been
      stored, a second validated packet for the same process leaves the
      table as it was. */
  lemma SingleInsertStoresOnce(c: Crypto, s: State, d1: Data, d2: Data, pid: nat, fault1: Fault, fault2: Fault)
    requires Valid(s.store) && pid in s.processes
    requires OnDataValidated(c, s, d1, pid, fault1).Success?
    ensures var s1 := OnDataValidated(c, s, d1, pid, fault1).value.0;
            OnDataValidated(c, s1, d2, pid, fault2) == Success((s1, [ScheduleDelete(pid)]))
  {
    var s1 := OnDataValidated(c, s, d1, pid, fault1).value.0;
    assert InsertNumOf(s1.processes[pid].response) != 0;
  }

  /** `onTimeout` of a single insert (timeout or nack): drop the process. */
  function OnTimeout(s: State, pid: nat): (r: State)
    ensures pid !in r.processes
    ensures r.processes.Keys == s.processes.Keys - {pid}
    ensures pid !in s.processes ==> r == s
    ensures CreditsNonNegative(s) ==> CreditsNonNegative(r)
  {
    DeleteProcess(s, pid)
  }

  // ---------------------------------------------------- segmented insert

  /** The end-block refresh: a final segment announced by the data lowers
      the end block to it, or sets it when the process has none. */
  function RefreshEnd(response: Response, finalSegment: Option<nat>): (r: Response)
    ensures r.(endBlockId := response.endBlockId) == response
    ensures finalSegment.None? ==> r == response
    ensures finalSegment.Some? ==>
              && r.endBlockId.Some? && r.endBlockId.value <= finalSegment.value
              && (response.endBlockId.Some? ==> r.endBlockId.value <= response.endBlockId.value)
              && (r.endBlockId.value == finalSegment.value || r.endBlockId == response.endBlockId)
  {
    match finalSegment
    case None => response
    case Some(f) =>
      if response.endBlockId.Some? then
        if f < response.endBlockId.value then response.(endBlockId := Some(f)) else response
      else response.(endBlockId := Some(f))
  }

  /** `onSegmentDataValidated`: refresh the end block, store the packet and
      count it when the insertion reports true, then run the window
      control. An unknown process ignores the data. An insertion error
      propagates. */
  function OnSegmentDataValidated(c: Crypto, s: State, fetched: SegmentInterest, d: Data, pid: nat, fault: Fault, now: int): (r: Result<(State, seq<Effect>)>)
    requires Valid(s.store)
    ensures pid !in s.processes ==> r == Success((s, []))
    ensures pid in s.processes ==>
              (r.Success? <==> RepoStorage.InsertData(c, s.store, d, fault).Success?)
    ensures pid in s.processes && r.Success? ==>
              var inserted := RepoStorage.InsertData(c, s.store, d, fault).value;
              var proc := s.processes[pid];
              var response := RefreshEnd(proc.response, d.finalSegment);
              var counted := if inserted.0 then response.(insertNum := Some(InsertNumOf(response) + 1)) else response;
              && Valid(inserted.1) && Has(inserted.1, FullName(c, d))
              && r.value == (var control := SegmentDataControl(Put(s.(store := inserted.1), pid, proc.(response := counted)), pid, fetched, now);
                            (control.0, Signals(inserted.2) + control.1))
    ensures r.Success? ==> Valid(r.value.0.store) && r.value.0.interestLifetime == s.interestLifetime
    ensures r.Success? && CreditsNonNegative(s) ==> CreditsNonNegative(r.value.0)
  {
    if pid !in s.processes then Success((s, []))
    else
      var proc := s.processes[pid];
      var response := RefreshEnd(proc.response, d.finalSegment);
      var inserted :- RepoStorage.InsertData(c, s.store, d, fault);
      var (ok, store, notices) := inserted;
      var counted := if ok then response.(insertNum := Some(InsertNumOf(response) + 1)) else response;
      var control := SegmentDataControl(Put(s.(store := store), pid, proc.(response := counted)), pid, fetched, now);
      Success((control.0, Signals(notices) + control.1))
  }

  /** The no-end deadline has passed. */
  predicate DeadlinePassed(p: Process, now: int) {
    p.response.endBlockId.None? && now > p.noEndTime
  }

  /** Every segment of the range has been inserted: the insert count has
      reached `end - start + 1`, computed in unsigned 64-bit arithmetic. */
  predicate Complete(p: Process) {
    p.response.endBlockId.Some? &&
    InsertNumOf(p.response) >= U64(p.response.endBlockId.value - p.response.startBlockId.GetOr(0) + 1)
  }

  /** `onSegmentDataControl`, run when a segment arrives: the credit grows
      by one; a passed no-end deadline sets 405, a complete range sets 200,
      and either schedules the deletion and sends nothing. Otherwise, when
      credit remains and the queue is not empty, the front segment is
      popped and, unless it lies past the end block, sent under the
      arriving interest's prefix: the credit shrinks by one, the arrived
      segment's retry count is dropped, the sent one's is set to 0 or
      incremented, and the next segment is queued while it is within the
      end block. */
  function SegmentDataControl(s: State, pid: nat, fetched: SegmentInterest, now: int): (r: (State, seq<Effect>))
    ensures pid !in s.processes ==> r == (s, [])
    ensures pid in s.processes ==> r.0.processes.Keys == s.processes.Keys
    ensures forall q :: q in s.processes && q != pid ==> q in r.0.processes && r.0.processes[q] == s.processes[q]
    ensures r.0.store == s.store && r.0.interestLifetime == s.interestLifetime
    ensures CreditsNonNegative(s) ==> CreditsNonNegative(r.0)
    ensures |r.1| <= 1
    ensures pid in s.processes ==>
              var before := s.processes[pid];
              var after := r.0.processes[pid];
              && (DeadlinePassed(before, now) ==>
                    && r.1 == [ScheduleDelete(pid)]
                    && after == before.(credit := before.credit + 1, response := before.response.(code := Some(405))))
              && (!DeadlinePassed(before, now) && Complete(before) ==>
                    && r.1 == [ScheduleDelete(pid)]
                    && after == before.(credit := before.credit + 1, response := before.response.(code := Some(200))))
              && (|r.1| == 1 && r.1[0].FetchSegment? ==>
                    && !DeadlinePassed(before, now) && !Complete(before)
                    && |before.queue| > 0
                    && r.1[0] == FetchSegment(SegmentInterest(fetched.prefix, before.queue[0]), s.interestLifetime, pid)
                    && (before.response.endBlockId.Some? ==> before.queue[0] <= before.response.endBlockId.value)
                    && after.credit == before.credit
                    && before.queue[0] in after.retryCounts
                    && (fetched.segment != before.queue[0] ==> fetched.segment !in after.retryCounts)
                    && after.response == before.response)
              && (r.1 == [] ==> after.response == before.response && after.credit == before.credit + 1)
    ensures pid in s.processes ==>
              var before := s.processes[pid];
              var after := r.0.processes[pid];
              var end := before.response.endBlockId;
              var open := !DeadlinePassed(before, now) && !Complete(before) && before.credit + 1 != 0 && |before.queue| > 0;
              && (!DeadlinePassed(before, now) && !Complete(before) && !open ==>
                    r.1 == [] && after == before.(credit := before.credit + 1))
              && (open && end.Some? && before.queue[0] > end.value ==>
                    r.1 == [] && after == before.(credit := before.credit + 1, queue := before.queue[1..]))
              && (open && (end.None? || before.queue[0] <= end.value) ==>
                    r.1 == [FetchSegment(SegmentInterest(fetched.prefix, before.queue[0]), s.interestLifetime, pid)]
                    && after == SendFront(before, fetched.segment))
  {
    if pid !in s.processes then (s, [])
    else
      var proc := s.processes[pid];
      var credit := proc.credit + 1;
      var response := proc.response;
      if DeadlinePassed(proc, now) then
        (Put(s, pid, proc.(credit := credit, response := response.(code := Some(405)))), [ScheduleDelete(pid)])
      else if Complete(proc) then
        (Put(s, pid, proc.(credit := credit, response := response.(code := Some(200)))), [ScheduleDelete(pid)])
      else if credit == 0 || |proc.queue| == 0 then
        (Put(s, pid, proc.(credit := credit)), [])
      else
        var sending := proc.queue[0];
        if response.endBlockId.Some? && sending > response.endBlockId.value then
          (Put(s, pid, proc.(credit := credit, queue := proc.queue[1..])), [])
        else
          (Put(s, pid, SendFront(proc, fetched.segment).(credit := credit - 1)),
           [FetchSegment(SegmentInterest(fetched.prefix, sending), s.interestLifetime, pid)])
  }

  /** The bookkeeping of sending the front segment after segment `arrived`
      came in: the front is popped, the arrived segment's retry count is
      dropped, the sent one's is set to 0 or incremented, and the next
      segment is queued while it is within the end block. */
  function SendFront(p: Process, arrived: nat): (r: Process)
    requires |p.queue| > 0
    ensures var end := p.response.endBlockId;
            var sent := p.queue[0];
            var grow := end.None? || p.nextSegment + 1 <= end.value;
            && r.nextSegment == (if grow then p.nextSegment + 1 else p.nextSegment)
            && r.queue == p.queue[1..] + (if grow then [p.nextSegment + 1] else [])
            && r.retryCounts.Keys == p.retryCounts.Keys - {arrived} + {sent}
            && r.retryCounts[sent] == (if sent in p.retryCounts && sent != arrived then p.retryCounts[sent] + 1 else 0)
            && (forall k :: k in r.retryCounts && k != sent ==> r.retryCounts[k] == p.retryCounts[k])
    ensures r.response == p.response && r.credit == p.credit && r.noEndTime == p.noEndTime
  {
    var sending := p.queue[0];
    var retries := p.retryCounts - {arrived};
    var retries' := retries[sending := if sending in retries then retries[sending] + 1 else 0];
    var grow := p.response.endBlockId.None? || p.nextSegment + 1 <= p.response.endBlockId.value;
    var next := if grow then p.nextSegment + 1 else p.nextSegment;
    var queue := if grow then p.queue[1..] + [next] else p.queue[1..];
    p.(retryCounts := retries', nextSegment := next, queue := queue)
  }

  /** The credit check never stops the window: with a non-negative credit,
      a running process with a sendable front segment always sends it. */
  lemma CreditNeverBlocks(s: State, pid: nat, fetched: SegmentInterest, now: int)
    requires pid in s.processes && s.processes[pid].credit >= 0
    requires !DeadlinePassed(s.processes[pid], now) && !Complete(s.processes[pid])
    requires |s.processes[pid].queue| > 0
    requires var p := s.processes[pid];
             p.response.endBlockId.None? || p.queue[0] <= p.response.endBlockId.value
    ensures |SegmentDataControl(s, pid, fetched, now).1| == 1
  {
  }

  /** The queue grows only while the next segment is within the end block:
      a process whose queue and next segment lie within its end block keeps
      them there. */
  lemma QueueStaysWithinEnd(s: State, pid: nat, fetched: SegmentInterest, now: int)
    requires pid in s.processes
    requires var p := s.processes[pid];
             && p.response.endBlockId.Some? && p.nextSegment <= p.response.endBlockId.value
             && forall i :: 0 <= i < |p.queue| ==> p.queue[i] <= p.response.endBlockId.value
    ensures var p := SegmentDataControl(s, pid, fetched, now).0.processes[pid];
            && p.response.endBlockId.Some? && p.nextSegment <= p.response.endBlockId.value
            && forall i :: 0 <= i < |p.queue| ==> p.queue[i] <= p.response.endBlockId.value
  {
  }

  /** The retry count of a segment; `operator[]` reads a missing one as 0. */
  function RetryOf(m: map<nat, nat>, segment: nat): nat {
    if segment in m then m[segment] else 0
  }

  /** `onSegmentTimeoutControl`, run on a segment's timeout or nack: past
      `RETRY_TIMEOUT` retries the process is dropped; otherwise the count
      grows by one and the same interest is sent again. An unknown process
      ignores it. */
  function OnSegmentTimeoutControl(s: State, pid: nat, fetched: SegmentInterest): (r: (State, seq<Effect>))
    ensures pid !in s.processes ==> r == (s, [])
    ensures pid in s.processes && RetryOf(s.processes[pid].retryCounts, fetched.segment) >= RETRY_TIMEOUT ==>
              r == (DeleteProcess(s, pid), [])
    ensures pid in s.processes && RetryOf(s.processes[pid].retryCounts, fetched.segment) < RETRY_TIMEOUT ==>
              && r.1 == [FetchSegment(fetched, s.interestLifetime, pid)]
              && r.0.processes.Keys == s.processes.Keys
              && r.0.processes[pid] == s.processes[pid].(retryCounts := r.0.processes[pid].retryCounts)
              && r.0.processes[pid].retryCounts
                   == s.processes[pid].retryCounts[fetched.segment := RetryOf(s.processes[pid].retryCounts, fetched.segment) + 1]
    ensures forall q :: q in r.0.processes && q != pid ==> r.0.processes[q] == s.processes[q]
    ensures r.0.store == s.store && r.0.interestLifetime == s.interestLifetime
    ensures CreditsNonNegative(s) ==> CreditsNonNegative(r.0)
  {
    if pid !in s.processes then (s, [])
    else
      var proc := s.processes[pid];
      var count := RetryOf(proc.retryCounts, fetched.segment);
      if count >= RETRY_TIMEOUT then (DeleteProcess(s, pid), [])
      else (Put(s, pid, proc.(retryCounts := proc.retryCounts[fetched.segment := count + 1])),
            [FetchSegment(fetched, s.interestLifetime, pid)])
  }

  /** `k` consecutive timeouts of the same segment interest. */
  function Timeouts(s: State, pid: nat, fetched: SegmentInterest, k: nat): (r: (State, seq<Effect>))
    decreases k
  {
    if k == 0 then (s, [])
    else
      var (s1, e1) := OnSegmentTimeoutControl(s, pid, fetched);
      var (s2, e2) := Timeouts(s1, pid, fetched, k - 1);
      (s2, e1 + e2)
  }

  /** A segment that keeps timing out is re-sent until its count reaches
      `RETRY_TIMEOUT`, and the next timeout drops the process: from a count
      of `n`, exactly `RETRY_TIMEOUT - n` re-sends, then the process is
      gone. */
  lemma {:induction false} RetriesRunOut(s: State, pid: nat, fetched: SegmentInterest)
    requires pid in s.processes
    requires RetryOf(s.processes[pid].retryCounts, fetched.segment) <= RETRY_TIMEOUT
    ensures var n := RetryOf(s.processes[pid].retryCounts, fetched.segment);
            var r := Timeouts(s, pid, fetched, RETRY_TIMEOUT + 1 - n);
            && pid !in r.0.processes
            && |r.1| == RETRY_TIMEOUT - n
            && forall i :: 0 <= i < |r.1| ==> r.1[i] == FetchSegment(fetched, s.interestLifetime, pid)
    decreases RETRY_TIMEOUT - RetryOf(s.processes[pid].retryCounts, fetched.segment)
  {
    var n := RetryOf(s.processes[pid].retryCounts, fetched.segment);
    var step := OnSegmentTimeoutControl(s, pid, fetched);
    if n < RETRY_TIMEOUT {
      assert RetryOf(step.0.processes[pid].retryCounts, fetched.segment) == n + 1;
      RetriesRunOut(step.0, pid, fetched);
      var r := Timeouts(step.0, pid, fetched, RETRY_TIMEOUT - n);
      assert Timeouts(s, pid, fetched, RETRY_TIMEOUT + 1 - n) == (r.0, step.1 + r.1);
    } else {
      assert Timeouts(s, pid, fetched, 1) == (step.0, step.1 + []);
    }
  }

  // ------------------------------------------------------- check command

  /** `extendNoEndTime`: past the deadline the status becomes 405;
      otherwise the deadline moves to `now + NOEND_TIMEOUT`. */
  function ExtendNoEndTime(p: Process, now: int): (r: Process)
    ensures now > p.noEndTime ==> r == p.(response := p.response.(code := Some(405)))
    ensures now <= p.noEndTime ==> r == p.(noEndTime := now + NOEND_TIMEOUT)
  {
    if now > p.noEndTime then p.(response := p.response.(code := Some(405)))
    else p.(noEndTime := now + NOEND_TIMEOUT)
  }

  /** `handleCheckCommand`: 404 for an unknown process; otherwise the stored
      response, after extending the deadline (or setting 405) of a
      segmented process without an end block. */
  function HandleCheckCommand(s: State, p: Parameter, now: int): (r: (State, seq<Effect>))
    ensures |r.1| == 1 && r.1[0].Reply?
    ensures p.processId.GetOr(0) !in s.processes ==>
              r == (s, [Reply(StatusReply(404, NO_SUCH_PROCESS))])
    ensures p.processId.GetOr(0) in s.processes ==>
              var pid := p.processId.GetOr(0);
              var before := s.processes[pid];
              && pid in r.0.processes && r.0.processes.Keys == s.processes.Keys
              && r.1 == [Reply(r.0.processes[pid].response)]
              && (before.response.startBlockId.Some? && before.response.endBlockId.None? ==>
                    r.0.processes[pid] == ExtendNoEndTime(before, now))
              && (before.response.startBlockId.None? || before.response.endBlockId.Some? ==> r.0 == s)
    ensures forall q :: q in s.processes && q != p.processId.GetOr(0) ==> r.0.processes[q] == s.processes[q]
    ensures r.0.store == s.store && r.0.interestLifetime == s.interestLifetime
    ensures CreditsNonNegative(s) ==> CreditsNonNegative(r.0)
  {
    var pid := p.processId.GetOr(0);
    if pid !in s.processes then (s, [Reply(StatusReply(404, NO_SUCH_PROCESS))])
    else
      var proc := s.processes[pid];
      if proc.response.startBlockId.None? && proc.response.endBlockId.None? then (s, [Reply(proc.response)])
      else if proc.response.endBlockId.None? then
        var proc' := ExtendNoEndTime(proc, now);
        (Put(s, pid, proc'), [Reply(proc'.response)])
      else (s, [Reply(proc.response)])
  }

  /** A check of a no-end process before its deadline keeps the process
      alive: the control run at the old deadline does not stop it. */
  lemma CheckPostponesDeadline(s: State, p: Parameter, now: int, later: int)
    requires p.processId.GetOr(0) in s.processes
    requires var proc := s.processes[p.processId.GetOr(0)];
             proc.response.startBlockId.Some? && proc.response.endBlockId.None? && now <= proc.noEndTime
    requires now <= later <= now + NOEND_TIMEOUT
    ensures !DeadlinePassed(HandleCheckCommand(s, p, now).0.processes[p.processId.GetOr(0)], later)
  {
  }

  /** A check of a segmented insert just accepted replies the response the
      insert stored: the accepted reply with status 300, or, when that
      response has no end block and the check comes after the deadline the
      insert set, that response with 405. */
  lemma SegmentedInsertThenCheck(s: State, p: Parameter, pid: nat, now: int, check: Parameter, later: int)
    requires p.startBlockId.Some? || p.endBlockId.Some?
    requires p.endBlockId.None? || StartOf(p) <= p.endBlockId.value
    requires check.processId == Some(pid)
    ensures var (s1, effects) := HandleInsertCommand(s, p, pid, now);
            var stored := effects[0].response.(code := Some(300));
            && (stored.endBlockId.Some? || later <= now + NOEND_TIMEOUT ==>
                  HandleCheckCommand(s1, check, later).1 == [Reply(stored)])
            && (stored.endBlockId.None? && later > now + NOEND_TIMEOUT ==>
                  HandleCheckCommand(s1, check, later).1 == [Reply(stored.(code := Some(405)))])
  {
    var (s1, effects) := HandleInsertCommand(s, p, pid, now);
    var seg := ProcessSegmentedInsertCommand(s, p, pid, now);
    assert s1.processes == seg.0.processes && effects == seg.1;
    var proc := s1.processes[pid];
    assert proc.response == effects[0].response.(code := Some(300));
    assert proc.response.startBlockId.Some?;
    if proc.response.endBlockId.None? {
      assert p.endBlockId.None? && proc.noEndTime == now + NOEND_TIMEOUT;
    }
  }
}
